=== FILE: README.md ===
# Verified model of the express-boilerplate service core

This project models, in Dafny, the decision logic of a REST backend for user accounts, authentication
and image upload:

- **Image compression and upload** (`src/services/file.service.js`). An uploaded image over the
  100 KiB budget is re-encoded from the original buffer at qualities 80, 70, …, 10. Each attempt caps
  the width at 800 px and keeps PNG or WEBP, or else encodes JPEG. The loop stops at the first output
  within budget. If none fits, one JPEG fallback runs at width 400 and quality 60, and its output is
  returned whatever its size. `uploadFile` then stores the bytes, their length and a MIME label.
  The image codec (sharp) is a parameter, `Codec`: `metadata` decodes the width and `encode` runs one
  resize-and-encode pipeline. Either may fail.
- **The user schema** (`src/models/user.model.js`): the password rules (required unless a Google id is
  set, length at least 8, a letter and a digit), the trim and lowercase setters, the defaults, the
  `isPasswordMatch` method, the pre-save hashing hook and the lookup statics. bcrypt is a parameter
  (`Hasher`).
- **The auth service** (`src/services/auth.service.js`). Each operation is a transition on a `Store`
  holding the users and token documents in natural order. The operations are login, logout, refresh,
  password reset, email verification, Google sign-in and password change. Each returns `Result`: a
  new store or an `ApiError`. Token verification and issuing and Google ID-token verification are
  function fields of `Env`.
- **The profile controller** (`src/controllers/me.controller.js`): the update body `updateMe` builds and
  the `getMe` lookup.

The compression loop is modelled as written, as the tail-recursive `QualityLoop`. It is proved equal,
on every input, to an independent plan-based definition, `ReferenceCompress`: a fixed schedule of
`MaxAttempts` requests, stopped at the first request that fails or fits (`FirstStop`). The properties
of compression are derived from that equivalence.

Files: `wrappers.dfy` (Option/Result), `api_errors.dfy`, `collections.dfy` (first-match lookup, filter,
removal), `text.dfy` (JavaScript `trim`, lower-casing, `\d` and `[a-zA-Z]`, UTF-16 length, UTF-8 encoding), `user_model.dfy`,
`file_service.dfy`, `auth_service.dfy`, `me_controller.dfy`.

## Model

| member | source | states |
|---|---|---|
| FileService.IsImage | src/services/file.service.js:8-10 | a MIME type is an image type iff it starts with `image/` |
| FileService.OutputFormat | src/services/file.service.js:21-46 | the loop keeps PNG for exactly `image/png` and WEBP for exactly `image/webp` and encodes JPEG for every other type; the format's MIME type equals the input's iff the input is one of those three |
| FileService.QualityLoop | src/services/file.service.js:16-48 | the loop only ever fails with an encoder error and never sets the fallback flag (its full behaviour is stated by `LoopFollowsPlan`) |
| FileService.CompressImage | src/services/file.service.js:12-59 | fails with `DecodeError` exactly when the metadata cannot be read, even for an input within budget; returns an input within budget unchanged with nothing encoded; an over-budget result implies the fallback ran |
| FileService.FirstStop | src/services/file.service.js:20 | the index of the first planned request that fails or fits: every earlier one produced an over-budget output |
| FileService.QualitySchedule | src/services/file.service.js:16-47 | the qualities tried are exactly 80, 70, 60, 50, 40, 30, 20, 10, strictly descending, all at least 10; the next one fails the loop condition |
| FileService.LoopFollowsPlan | src/services/file.service.js:16-48 | from any iteration on, the loop issues the planned requests in order and stops at the first that fails or fits, or exhausts the plan with an over-budget result |
| FileService.CompressImageMatchesReference | src/services/file.service.js:12-58 | the loop implementation equals the plan-based reference definition on every codec, buffer and MIME type |
| FileService.AttemptsFollowSchedule | src/services/file.service.js:20-47 | at most 8 attempts; attempt i uses quality 80-10i, width min(width, 800), the format picked by the MIME type alone, and compression level 9 for PNG |
| FileService.ResultProvenance | src/services/file.service.js:17-58 | the result is the input (nothing encoded), the last loop output (it fits, every earlier one did not), or the fallback output; over budget only on the fallback |
| FileService.FallbackExactlyWhenLoopExhausted | src/services/file.service.js:20-56 | the fallback runs iff the input is over budget and all eight loop outputs, the last included, were over budget |
| FileService.FallbackIsReturnedEvenOverBudget | src/services/file.service.js:51-58 | once the loop is exhausted, the JPEG 400 px / quality 60 output is returned with no error whatever its size |
| FileService.EncodeErrorProvenance | src/services/file.service.js:21-56 | an encoder failure happens only for an over-budget decodable input and names a planned request or the fallback request that actually failed |
| FileService.RecompressIsIdentity | src/services/file.service.js:17-58 | compressing a within-budget result again returns it unchanged |
| FileService.FallbackRepeatsLoopRequestAt400 | src/services/file.service.js:39-55 | for a JPEG-bound image exactly 400 px wide the fallback repeats the quality-60 loop request, so a fallback result is always over budget |
| FileService.StoredImageMime | src/services/file.service.js:71-73 | the label stored for an image is the MIME type of the format the loop encodes that input type to |
| FileService.MissingPaths | src/models/file.model.js:6-32 | a path fails its `required` validator iff it holds the empty string (the two names after trimming, and the MIME type) or the empty buffer; `size` and `uploadedBy` never fail |
| FileService.CreateFile | src/models/file.model.js:6-32 | `File.create` succeeds iff both trimmed names, the MIME type and the data are non-empty, and then stores the document with both names trimmed; otherwise a validation error naming at least one path |
| FileService.StoreFile | src/services/file.service.js:76-83 | the document `uploadFile` creates is stored iff the trimmed original name is not blank and the label and data are non-empty; it holds the trimmed `<timestamp>-<name>` and the trimmed name |
| FileService.NamedFileHasFilename | src/services/file.service.js:77 | the stored file name keeps the `-` after the timestamp, so it is never blank |
| FileService.UploadFile | src/services/file.service.js:61-86 | a non-image is stored with its bytes, type and size untouched; an image stores the compressed bytes and their length, labelled `image/jpeg` unless the input type is exactly `image/png` or `image/webp`; compression errors propagate; a blank original name, empty label or empty data is a validation error unless compression failed first, and both names are stored trimmed |
| FileService.SmallGifIsMislabelled | src/services/file.service.js:67-73 | every decodable, non-empty GIF within budget with a non-blank name is stored with its GIF bytes but labelled `image/jpeg` |
| FileService.PngFallbackIsMislabelled | src/services/file.service.js:51-73 | every decodable PNG with a non-blank name whose eight loop outputs are over budget and whose fallback output is non-empty is stored with that JPEG output but labelled `image/png` |
| FileService.UploadFileCorrected | src/services/file.service.js:67-74 | an image that is stored gets the label of how its bytes were produced: the input type when nothing was re-encoded, the loop's format, or JPEG after the fallback |
| FileService.CorrectionKeepsAllButLabel | src/services/file.service.js:61-86 | the correction fails exactly when `uploadFile` fails, leaves non-images identical, and changes no stored field but the label |
| FileService.CorrectedLabelMatchesContent | src/services/file.service.js:70-73 | with the correction the stored label is always the MIME type of the format the stored bytes are in |
| FileService.CorrectionOnlyChangesMismatches | src/services/file.service.js:70-73 | the correction changes the label only for unchanged bytes of a type other than PNG/WEBP/JPEG and for PNG/WEBP fallback output |
| FileService.GetFileById | src/services/file.service.js:88-94 | returns the stored document iff the id exists, else 404 "File not found" |
| Text.Trim | src/models/user.model.js:12 | the result has no leading or trailing JavaScript whitespace, and it is empty iff the input was all whitespace |
| Text.TrimIsMiddleSlice | src/models/user.model.js:12 | the trimmed value is the input's slice right after its leading whitespace, with only whitespace after it; with `Trim` this determines the result |
| Text.TrimIsTheOnlyMiddle | src/models/user.model.js:12 | any slice after the leading whitespace, with only whitespace after it and non-whitespace ends, is the trimmed value: `Trim` is fully determined |
| Text.Utf16Length | src/models/user.model.js:32 | JavaScript's string length: between one and two code units per character, and one per character iff every character is in the Basic Multilingual Plane |
| Text.TrimCommutesWithLower | src/models/user.model.js:18-19 | the trim and lowercase setters give the same value in either order |
| UserModel.NormalizeEmail | src/models/user.model.js:18-19 | a stored email has no surrounding whitespace and no upper-case ASCII letter |
| UserModel.NormalizeEmailIsLoweredMiddle | src/models/user.model.js:18-19 | a stored email is the slice of the lower-cased input right after its leading whitespace, with only whitespace after it |
| UserModel.NormalizeEmailIsTheOnlyLoweredMiddle | src/models/user.model.js:18-19 | any such slice of the lower-cased input with non-whitespace ends is the stored email: the setters' result is fully determined |
| UserModel.NormalizeEmailIdempotent | src/models/user.model.js:18-19 | normalizing a stored email again changes nothing |
| UserModel.ValidatePassword | src/models/user.model.js:26-39 | the `required` error appears iff there is no Google id and no non-empty password; a password passes iff it is absent and not required, or is at least 8 UTF-16 code units long with a digit and an ASCII letter; a present password that is not `required`-rejected but shorter gets the length error, and the letter-and-digit error appears iff a non-empty password long enough lacks a digit or a letter |
| UserModel.AstralCharactersCountTwice | src/models/user.model.js:32 | `minlength` counts code units: "abc1" and two emoji pass, "abc1" and one emoji is too short |
| UserModel.EmptyPasswordSkipsFormatRule | src/models/user.model.js:32-34 | an empty password never reaches the letter-and-digit error; on a Google account it fails the length rule |
| UserModel.FormatRule | src/models/user.model.js:33-39 | a password of length at least 8 gets the letter-and-digit error iff it lacks a digit or an ASCII letter |
| UserModel.IsPasswordMatch | src/models/user.model.js:90-96 | false without comparing when no password is stored, otherwise bcrypt's verdict |
| UserModel.PreSave | src/models/user.model.js:107-112 | the password becomes its hash iff it was modified and is non-empty; nothing else changes |
| UserModel.SavePassword | src/models/user.model.js:107-111 | assigning a password stores the hash of its trimmed form when that differs from the stored value; only the password changes |
| UserModel.BcryptVerifiesOwnHash | src/models/user.model.js:95-110 | a bcrypt hash accepts the string it was made from |
| UserModel.SurroundingWhitespaceDefeatsMatch | src/models/user.model.js:26-111 | a password saved with surrounding whitespace matches in its trimmed form, and no longer matches as typed whenever bcrypt reads all of it (at most 72 UTF-8 bytes, no NUL) |
| UserModel.TrimKeepsBcryptFit | src/models/user.model.js:31 | trimming a string bcrypt reads in full gives a string bcrypt reads in full |
| UserModel.LongPasswordSurvivesTrim | src/models/user.model.js:31-110 | 72 letters and a space still match as typed after the setter drops the space, because bcrypt reads only 72 bytes |
| UserModel.CreateUser | src/models/user.model.js:7-68 | a created user has the trimmed name, the normalized email, role "user" and `isEmailVerified` false unless given, and a hashed password when one is given |
| UserModel.CreatedPasswordMatches | src/models/user.model.js:26-110 | a password given at creation matches the created user in its trimmed form |
| UserModel.CreatedUserIsFound | src/models/user.model.js:80-83 | a user created under a fresh id with an email nobody has is what the lookups by id and by email find |
| UserModel.FindById | src/services/auth.service.js:55 | the first user with that id (no earlier user has it), or none has it |
| UserModel.FindByEmail | src/services/auth.service.js:20 | the first user whose stored email equals the normalized query, or none matches |
| UserModel.FindByGoogleId | src/models/user.model.js:103-105 | the first user with that Google id, or none has it |
| UserModel.IsEmailTaken | src/models/user.model.js:80-83 | true iff some user other than the excluded one has that email |
| AuthService.DeleteOne | src/services/auth.service.js:41 | with no document of that id the tokens are unchanged; with distinct ids exactly that document is removed |
| AuthService.DeleteMany | src/services/auth.service.js:83 | a token remains iff it was stored and is not of that user and type |
| AuthService.LoginWithEmailAndPassword | src/services/auth.service.js:19-25 | succeeds iff the email finds a user whose password matches, and returns that first-found user; an unknown email and a wrong password give the same 401 |
| AuthService.Logout | src/services/auth.service.js:32-42 | 404 iff no non-blacklisted refresh token equals the string; otherwise exactly one token record is removed; when ids are distinct it is the first live record with that string, the one `findOne` returns in natural order |
| AuthService.LogoutTwiceFails | src/services/auth.service.js:32-42 | a second logout with a singly stored refresh token returns 404 |
| AuthService.RefreshAuth | src/services/auth.service.js:49-64 | every failure is 401 "Please authenticate"; success iff the token verifies and its user exists; the used record is deleted and the issued ones appended; users untouched |
| AuthService.RefreshConsumesToken | src/services/auth.service.js:51-60 | with distinct ids, the used refresh record is gone afterwards unless the issuer saved it again |
| AuthService.RemovedDocIsGone | src/services/auth.service.js:41 | with distinct ids, a removed token document occurs nowhere in what remains |
| AuthService.ResetPasswordOp | src/services/auth.service.js:72-87 | every failure is 401 "Password reset failed"; on success only the owner's password is saved, and exactly the owner's reset tokens are deleted |
| AuthService.FindByEmailAfterUpdate | src/services/auth.service.js:20 | replacing a user by one with the same email leaves every lookup by email as it was |
| AuthService.FindByIdAfterUpdate | src/services/auth.service.js:55 | replacing a user by one with the same id leaves every lookup by id as it was |
| AuthService.SavedPasswordLogsIn | src/services/auth.service.js:19-25 | saving a new password for a user their email finds lets them log in with its trimmed form |
| AuthService.ResetThenLogin | src/services/auth.service.js:72-87 | after a reset to a password that is not blank and whose trimmed form differs from the stored value, logging in with the owner's email (when it finds the owner) and the trimmed new password succeeds, for any hasher that accepts its own hashes |
| AuthService.VerifyEmailOp | src/services/auth.service.js:94-109 | every failure is 401 "Email verification failed"; on success exactly the owner's verify-email tokens are deleted and the owner is marked verified |
| AuthService.VerifyEmailSpendsToken | src/services/auth.service.js:94-109 | when verification only returns stored documents of the asked type, a used token leaves the owner verified with no verify-email token, and cannot verify the owner again |
| AuthService.VerifyEmailAgainKeepsUsers | src/services/auth.service.js:94-109 | a second successful verification of the same owner leaves the users as the first left them |
| AuthService.LoginWithGoogle | src/services/auth.service.js:116-165 | 401 only for an invalid ID token. A user found by Google id changes only its picture, and only when a picture is supplied. Otherwise a user found by email gets the Google id linked and the picture overwritten if supplied. Otherwise a verified, password-less user with a fresh id is appended |
| AuthService.GoogleLoginIsStable | src/services/auth.service.js:131-152 | signing in again with the same token finds the same user and changes nothing |
| AuthService.ChangePassword | src/services/auth.service.js:174-189 | errors in order: 404 for a missing user, 400 without a password, 401 on a mismatch; succeeds iff the user exists, has a password and the current password matches, and then only that user's password changes |
| AuthService.ChangeThenLogin | src/services/auth.service.js:174-189 | after a change to a password that is not blank and whose trimmed form differs from the stored value, logging in with the user's email (when it finds the user) and the trimmed new password succeeds |
| AuthService.ChangeRetiresOldPassword | src/services/auth.service.js:174-189 | with bcrypt the new password's hash is stored, and a current password different from the trimmed new one, both read by bcrypt in full, no longer matches |
| MeController.UpdateMe | src/controllers/me.controller.js:9-17 | the update holds `name` (`mobile`) iff the body defines it, with the value copied unchanged; no other key ever appears; the call targets the authenticated id |
| MeController.UpdateMeForwardsNullAndEmpty | src/controllers/me.controller.js:10-13 | `null` and `""` are forwarded as they are while `role` and `password` are dropped |
| MeController.UpdateMeEmptyBody | src/controllers/me.controller.js:11-15 | an empty body gives an empty update, not an error |
| MeController.GetMe | src/controllers/me.controller.js:4-7 | returns the first user with the authenticated id, or nothing when none exists |
| MeController.GetMeIgnoresBody | src/controllers/me.controller.js:5 | two requests with the same authenticated id get the same answer |

## Findings

| source | as written | input that shows it | evidently intended | confidence | as-written member | corrected member |
|---|---|---|---|---|---|---|
| src/services/file.service.js:70-73 | the label is chosen from the input type, so bytes that were never re-encoded are still relabelled | a decodable, non-empty `image/gif` upload of at most 102400 bytes with a non-blank original name | the label names the stored bytes' format, as the comment "Update mimeType if converted to JPEG" says: `image/gif` here | medium, not executed | FileService.SmallGifIsMislabelled | FileService.UploadFileCorrected |
| src/services/file.service.js:51-73 | PNG and WEBP inputs keep their label even when the JPEG fallback produced the bytes | a decodable `image/png` upload over 102400 bytes with a non-blank original name, whose eight loop outputs all exceed 102400 bytes and whose fallback output is non-empty | `image/jpeg` for fallback output, as for every other conversion to JPEG | medium, not executed | FileService.PngFallbackIsMislabelled | FileService.UploadFileCorrected |

## Left out

- Pixel decoding and encoding (sharp) are the `Codec` parameter. The model makes no claim about pixel content, real output sizes or real output widths. `withoutEnlargement` is part of the request's meaning and is not computed.
- The `Date.now()` part of the stored file name is the `timestamp` string parameter.
- Persistence is not modelled. `File.create` runs only the file schema's `trim` setters and `required` validators, and its Mongoose validation error is reduced to the set of failing paths. Mongo collections are sequences, and `findOne` returns the first match in sequence order. Unique indexes on email and Google id are not enforced. Database failures are not modelled, so neither are partial effects left behind by a failing step.
- Async/await and concurrency: every call is sequential.
- `userService`, `tokenService` and the token model are not part of this model. `getUserById` and `getUserByEmail` are first-match lookups. `updateUserById` is field assignment followed by the pre-save hook; its own not-found and email-taken checks are not modelled. `verifyToken` and `generateAuthTokens` are functions in `Env`.
- Google ID-token verification (google-auth-library) is the `verifyIdToken` function in `Env`.
- bcrypt is the `Hasher` parameter. `BcryptHasher` states what bcryptjs does with its input: only the first 72 bytes of the UTF-8 encoding count, and two strings it reads in full (at most 72 bytes, no NUL) never share a hash. Salts, the cost factor 8 and the hash format are not modelled. Lemmas that need only "a hash accepts its own input" require the weaker `VerifiesOwnHash`.
- Strings are sequences of Unicode scalar values, so a lone UTF-16 surrogate cannot be represented; `Utf16Length` counts two code units for every character outside the Basic Multilingual Plane.
- Mongoose validation while saving inside the auth flows is not run. The validators are modelled on their own by `ValidatePassword`. The `validator.isEmail` check, the `name` requirement and the `role` enum are not modelled.
- UserModel.NormalizeEmail: lower-cases ASCII letters only, while JavaScript's `toLowerCase` also maps non-ASCII letters.
- AuthService.LoginWithGoogle: `picture` is declared as a Buffer, so the source's `user.picture !== picture` compares a Buffer with a string and is always true. The model holds the picture as a string and compares values. The stored state is the same either way. Only the extra save, which touches the timestamps, is not modelled.
- The toJSON and paginate plugins and the schema timestamps are not modelled.
- Routes, multer limits, Joi validations, middlewares, `file.controller.js`, `user.controller.js`, configuration, logger and Swagger: library configuration with no decision logic of this core.

=== FILE: api_errors.dfy ===
/** The `ApiError` exceptions the services throw: an HTTP status code and a message. */
module ApiErrors {

  const BadRequest: nat := 400
  const Unauthorized: nat := 401
  const NotFound: nat := 404

  datatype ApiError = ApiError(statusCode: nat, message: string)
}

=== FILE: auth_service.dfy ===
/**
 * `src/services/auth.service.js`: each operation is a transition on an abstract store of users and
 * token documents. The unseen collaborators (JWT verification and issuing, bcrypt, Google ID-token
 * verification) are the function fields of `Env`.
 */
module AuthService {
  import opened Wrappers
  import opened ApiErrors
  import opened Collections
  import opened Text
  import opened UserModel

  type TokenId = nat

  datatype TokenType = Access | Refresh | ResetPassword | VerifyEmail

  /** A token document: its id, the token string, its owner, its type and its blacklist flag. */
  datatype TokenDoc = TokenDoc(id: TokenId, token: string, user: UserId, tokenType: TokenType, blacklisted: bool)

  /** The two collections, in natural order. */
  datatype Store = Store(users: seq<User>, tokens: seq<TokenDoc>)

  datatype AuthTokens = AuthTokens(access: string, refresh: string)

  /** The verified claims of a Google ID token. */
  datatype GooglePayload = GooglePayload(sub: string, email: string, name: string, picture: Option<string>)

  datatype Env = Env(
    /** `tokenService.verifyToken`: the token document a signed token of this type refers to. */
    verifyToken: (string, TokenType, seq<TokenDoc>) -> Option<TokenDoc>,
    /** `tokenService.generateAuthTokens`: the issued tokens and the token documents it saves. */
    generateAuthTokens: User -> (AuthTokens, seq<TokenDoc>),
    /** `googleClient.verifyIdToken` followed by `getPayload`. */
    verifyIdToken: string -> Option<GooglePayload>,
    hasher: Hasher)

  /** Token document ids are distinct, as Mongo's `_id` index guarantees. */
  ghost predicate UniqueTokenIds(tokens: seq<TokenDoc>) {
    forall i, j :: 0 <= i < j < |tokens| ==> tokens[i].id != tokens[j].id
  }

  /** `Token.deleteOne({ _id })`: remove the first document with that id, if any. */
  function DeleteOne(tokens: seq<TokenDoc>, id: TokenId): (r: seq<TokenDoc>)
    ensures (forall j :: 0 <= j < |tokens| ==> tokens[j].id != id) ==> r == tokens
    ensures forall i :: 0 <= i < |tokens| && tokens[i].id == id && UniqueTokenIds(tokens) ==> r == RemoveAt(tokens, i)
  {
    match FindFirst(tokens, (t: TokenDoc) => t.id == id)
    case None => tokens
    case Some(i) => RemoveAt(tokens, i)
  }

  /** `Token.deleteMany({ user, type })`. */
  function DeleteMany(tokens: seq<TokenDoc>, user: UserId, tokenType: TokenType): (r: seq<TokenDoc>)
    ensures forall t :: t in r <==> t in tokens && !(t.user == user && t.tokenType == tokenType)
  {
    Filter(tokens, (t: TokenDoc) => !(t.user == user && t.tokenType == tokenType))
  }

  function LoginFailed(): ApiError {
    ApiError(Unauthorized, "Incorrect email or password")
  }

  /** `loginUserWithEmailAndPassword`: one error for an unknown email and for a wrong password. */
  function LoginWithEmailAndPassword(store: Store, email: string, password: string, env: Env): (r: Result<User, ApiError>)
    ensures r.Err? ==> r.error == LoginFailed()
    ensures FindByEmail(store.users, email).None? ==> r == Err(LoginFailed())
    ensures r.Ok? <==>
              var found := FindByEmail(store.users, email);
              found.Some? && IsPasswordMatch(store.users[found.value], password, env.hasher)
    ensures r.Ok? ==> r.value in store.users && r.value.email == NormalizeEmail(email)
    ensures r.Ok? ==> r.value == store.users[FindByEmail(store.users, email).value]
  {
    match FindByEmail(store.users, email)
    case None => Err(LoginFailed())
    case Some(i) =>
      if !IsPasswordMatch(store.users[i], password, env.hasher) then Err(LoginFailed()) else Ok(store.users[i])
  }

  /** A stored, non-blacklisted refresh token with this string. */
  predicate IsLiveRefresh(t: TokenDoc, refreshToken: string) {
    t.token == refreshToken && t.tokenType == Refresh && !t.blacklisted
  }

  /** `logout`: 404 unless a live refresh token matches; otherwise delete the first such document, as `findOne` returns it. */
  function Logout(store: Store, refreshToken: string): (r: Result<Store, ApiError>)
    ensures r.Err? <==> forall j :: 0 <= j < |store.tokens| ==> !IsLiveRefresh(store.tokens[j], refreshToken)
    ensures r.Err? ==> r.error == ApiError(NotFound, "Not found")
    ensures r.Ok? ==> r.value.users == store.users && |r.value.tokens| == |store.tokens| - 1
    ensures r.Ok? && UniqueTokenIds(store.tokens) ==>
              exists i :: 0 <= i < |store.tokens| && IsLiveRefresh(store.tokens[i], refreshToken)
                          && (forall j :: 0 <= j < i ==> !IsLiveRefresh(store.tokens[j], refreshToken))
                          && r.value.tokens == RemoveAt(store.tokens, i)
  {
    match FindFirst(store.tokens, (t: TokenDoc) => IsLiveRefresh(t, refreshToken))
    case None => Err(ApiError(NotFound, "Not found"))
    case Some(i) => Ok(store.(tokens := DeleteOne(store.tokens, store.tokens[i].id)))
  }

  /** Logging out twice with the same, singly stored, refresh token fails the second time. */
  lemma LogoutTwiceFails(store: Store, refreshToken: string, i: nat)
    requires UniqueTokenIds(store.tokens)
    requires i < |store.tokens| && IsLiveRefresh(store.tokens[i], refreshToken)
    requires forall j :: 0 <= j < |store.tokens| && j != i ==> !IsLiveRefresh(store.tokens[j], refreshToken)
    ensures Logout(store, refreshToken).Ok?
    ensures Logout(Logout(store, refreshToken).value, refreshToken) == Err(ApiError(NotFound, "Not found"))
  {
    var after := Logout(store, refreshToken).value;
    var k :| 0 <= k < |store.tokens| && IsLiveRefresh(store.tokens[k], refreshToken)
             && after.tokens == RemoveAt(store.tokens, k);
    assert k == i;
    forall j | 0 <= j < |after.tokens|
      ensures !IsLiveRefresh(after.tokens[j], refreshToken)
    {
      if j < i { assert after.tokens[j] == store.tokens[j]; }
      else { assert after.tokens[j] == store.tokens[j + 1]; }
    }
  }

  function PleaseAuthenticate(): ApiError {
    ApiError(Unauthorized, "Please authenticate")
  }

  /**
   * `refreshAuth`: every failure is 401 "Please authenticate"; on success the used refresh document
   * is deleted, then the issued tokens are saved.
   */
  function RefreshAuth(store: Store, refreshToken: string, env: Env): (r: Result<(Store, AuthTokens), ApiError>)
    ensures r.Err? ==> r.error == PleaseAuthenticate()
    ensures r.Ok? <==>
              var doc := env.verifyToken(refreshToken, Refresh, store.tokens);
              doc.Some? && FindById(store.users, doc.value.user).Some?
    ensures r.Ok? ==>
              var doc := env.verifyToken(refreshToken, Refresh, store.tokens).value;
              var user := store.users[FindById(store.users, doc.user).value];
              var (tokens, issued) := env.generateAuthTokens(user);
              && r.value.0.users == store.users
              && r.value.1 == tokens
              && |r.value.0.tokens| >= |issued|
              && r.value.0.tokens[|r.value.0.tokens| - |issued|..] == issued
              && r.value.0.tokens[..|r.value.0.tokens| - |issued|] == DeleteOne(store.tokens, doc.id)
  {
    match env.verifyToken(refreshToken, Refresh, store.tokens)
    case None => Err(PleaseAuthenticate())
    case Some(doc) =>
      match FindById(store.users, doc.user)
      case None => Err(PleaseAuthenticate())
      case Some(i) =>
        var remaining := DeleteOne(store.tokens, doc.id);
        var (tokens, issued) := env.generateAuthTokens(store.users[i]);
        Ok((store.(tokens := remaining + issued), tokens))
  }

  /** With distinct ids, a refresh consumes the stored document it used unless the issuer re-saves it. */
  lemma RefreshConsumesToken(store: Store, refreshToken: string, env: Env)
    requires UniqueTokenIds(store.tokens)
    requires RefreshAuth(store, refreshToken, env).Ok?
    ensures var doc := env.verifyToken(refreshToken, Refresh, store.tokens).value;
            var after := RefreshAuth(store, refreshToken, env).value.0;
            var issued := env.generateAuthTokens(store.users[FindById(store.users, doc.user).value]).1;
            doc !in issued && doc in store.tokens ==> doc !in after.tokens
  {
    var doc := env.verifyToken(refreshToken, Refresh, store.tokens).value;
    var after := RefreshAuth(store, refreshToken, env).value.0;
    var issued := env.generateAuthTokens(store.users[FindById(store.users, doc.user).value]).1;
    if doc !in issued && doc in store.tokens {
      var i :| 0 <= i < |store.tokens| && store.tokens[i] == doc;
      var remaining := RemoveAt(store.tokens, i);
      assert DeleteOne(store.tokens, doc.id) == remaining;
      assert after.tokens == remaining + issued;
      RemovedDocIsGone(store.tokens, i);
    }
  }

  /** With distinct ids, a removed document occurs nowhere else. */
  lemma RemovedDocIsGone(tokens: seq<TokenDoc>, i: nat)
    requires UniqueTokenIds(tokens) && i < |tokens|
    ensures tokens[i] !in RemoveAt(tokens, i)
  {
    var remaining := RemoveAt(tokens, i);
    forall j | 0 <= j < |remaining| ensures remaining[j] != tokens[i] {
      if j < i { assert remaining[j] == tokens[j]; }
      else { assert remaining[j] == tokens[j + 1]; }
    }
  }

  function ResetFailed(): ApiError {
    ApiError(Unauthorized, "Password reset failed")
  }

  /**
   * `resetPassword`: every failure is 401 "Password reset failed"; on success the owner's password is
   * saved and all of the owner's reset-password tokens are deleted.
   */
  function ResetPasswordOp(store: Store, resetToken: string, newPassword: string, env: Env): (r: Result<Store, ApiError>)
    ensures r.Err? ==> r.error == ResetFailed()
    ensures r.Ok? <==>
              var doc := env.verifyToken(resetToken, ResetPassword, store.tokens);
              doc.Some? && FindById(store.users, doc.value.user).Some?
    ensures r.Ok? ==>
              var owner := env.verifyToken(resetToken, ResetPassword, store.tokens).value.user;
              var i := FindById(store.users, owner).value;
              && |r.value.users| == |store.users|
              && r.value.users == store.users[i := SavePassword(store.users[i], newPassword, env.hasher)]
              && (forall t :: t in r.value.tokens <==> t in store.tokens && !(t.user == owner && t.tokenType == ResetPassword))
  {
    match env.verifyToken(resetToken, ResetPassword, store.tokens)
    case None => Err(ResetFailed())
    case Some(doc) =>
      match FindById(store.users, doc.user)
      case None => Err(ResetFailed())
      case Some(i) =>
        var user := store.users[i];
        var users := store.users[i := SavePassword(user, newPassword, env.hasher)];
        Ok(Store(users, DeleteMany(store.tokens, user.id, ResetPassword)))
  }

  /** Replacing a user by one with the same email leaves every lookup by email as it was. */
  lemma FindByEmailAfterUpdate(users: seq<User>, i: nat, u: User, email: string)
    requires i < |users| && u.email == users[i].email
    ensures FindByEmail(users[i := u], email) == FindByEmail(users, email)
  {
    var after := users[i := u];
    assert forall j :: 0 <= j < |users| ==> after[j].email == users[j].email;
    var a, b := FindByEmail(after, email), FindByEmail(users, email);
    if a.Some? && b.Some? {
      assert !(a.value < b.value) && !(b.value < a.value);
    }
  }

  /** Replacing a user by one with the same id leaves every lookup by id as it was. */
  lemma FindByIdAfterUpdate(users: seq<User>, i: nat, u: User, id: UserId)
    requires i < |users| && u.id == users[i].id
    ensures FindById(users[i := u], id) == FindById(users, id)
  {
    var after := users[i := u];
    assert forall j :: 0 <= j < |users| ==> after[j].id == users[j].id;
    var a, b := FindById(after, id), FindById(users, id);
    if a.Some? && b.Some? {
      assert !(a.value < b.value) && !(b.value < a.value);
    }
  }

  /**
   * Saving a new password for the user at `i` lets that user log in with its trimmed form, provided
   * the user is the one their email finds and the trimmed form differs from the stored value.
   */
  lemma SavedPasswordLogsIn(users: seq<User>, i: nat, plain: string, env: Env)
    requires VerifiesOwnHash(env.hasher)
    requires i < |users| && FindByEmail(users, users[i].email) == Some(i)
    requires Trim(plain) != "" && users[i].password != Some(Trim(plain))
    ensures var after := Store(users[i := SavePassword(users[i], plain, env.hasher)], []);
            LoginWithEmailAndPassword(after, users[i].email, Trim(plain), env) == Ok(after.users[i])
  {
    var saved := SavePassword(users[i], plain, env.hasher);
    FindByEmailAfterUpdate(users, i, saved, users[i].email);
    assert IsPasswordMatch(saved, Trim(plain), env.hasher);
  }

  /**
   * After a reset, logging in with the trimmed new password succeeds, provided it is not blank, it
   * differs from the stored value, and the user is the one their email finds.
   */
  lemma ResetThenLogin(store: Store, resetToken: string, newPassword: string, env: Env)
    requires VerifiesOwnHash(env.hasher)
    requires ResetPasswordOp(store, resetToken, newPassword, env).Ok?
    requires Trim(newPassword) != ""
    ensures var owner := env.verifyToken(resetToken, ResetPassword, store.tokens).value.user;
            var i := FindById(store.users, owner).value;
            var email := store.users[i].email;
            var after := ResetPasswordOp(store, resetToken, newPassword, env).value;
            store.users[i].password != Some(Trim(newPassword)) && FindByEmail(store.users, email) == Some(i) ==>
              LoginWithEmailAndPassword(after, email, Trim(newPassword), env).Ok?
  {
    var owner := env.verifyToken(resetToken, ResetPassword, store.tokens).value.user;
    var i := FindById(store.users, owner).value;
    if store.users[i].password != Some(Trim(newPassword)) && FindByEmail(store.users, store.users[i].email) == Some(i) {
      SavedPasswordLogsIn(store.users, i, newPassword, env);
    }
  }

  /**
   * What `tokenService.verifyToken` guarantees of the document it returns: a stored, non-blacklisted
   * document with that token string and type.
   */
  ghost predicate VerifiesStoredToken(env: Env) {
    forall token, tokenType, tokens :: env.verifyToken(token, tokenType, tokens).Some? ==>
      var doc := env.verifyToken(token, tokenType, tokens).value;
      doc in tokens && doc.token == token && doc.tokenType == tokenType && !doc.blacklisted
  }

  function VerifyFailed(): ApiError {
    ApiError(Unauthorized, "Email verification failed")
  }

  /**
   * `verifyEmail`: every failure is 401 "Email verification failed"; on success the owner's
   * verify-email tokens are deleted and the owner is marked verified.
   */
  function VerifyEmailOp(store: Store, verifyToken: string, env: Env): (r: Result<Store, ApiError>)
    ensures r.Err? ==> r.error == VerifyFailed()
    ensures r.Ok? <==>
              var doc := env.verifyToken(verifyToken, VerifyEmail, store.tokens);
              doc.Some? && FindById(store.users, doc.value.user).Some?
    ensures r.Ok? ==>
              var owner := env.verifyToken(verifyToken, VerifyEmail, store.tokens).value.user;
              var i := FindById(store.users, owner).value;
              && r.value.users == store.users[i := store.users[i].(isEmailVerified := true)]
              && (forall t :: t in r.value.tokens <==> t in store.tokens && !(t.user == owner && t.tokenType == VerifyEmail))
  {
    match env.verifyToken(verifyToken, VerifyEmail, store.tokens)
    case None => Err(VerifyFailed())
    case Some(doc) =>
      match FindById(store.users, doc.user)
      case None => Err(VerifyFailed())
      case Some(i) =>
        var user := store.users[i];
        var tokens := DeleteMany(store.tokens, user.id, VerifyEmail);
        Ok(Store(store.users[i := user.(isEmailVerified := true)], tokens))
  }

  /**
   * A verify-email token is spent once used: run again, it can no longer verify its owner, and the
   * owner is left verified.
   */
  lemma VerifyEmailSpendsToken(store: Store, verifyToken: string, env: Env)
    requires VerifiesStoredToken(env)
    requires VerifyEmailOp(store, verifyToken, env).Ok?
    ensures var owner := env.verifyToken(verifyToken, VerifyEmail, store.tokens).value.user;
            var after := VerifyEmailOp(store, verifyToken, env).value;
            && store.users[FindById(store.users, owner).value].id == owner
            && after.users[FindById(store.users, owner).value].isEmailVerified
            && (forall t :: t in after.tokens ==> !(t.user == owner && t.tokenType == VerifyEmail))
            && (VerifyEmailOp(after, verifyToken, env).Ok? ==>
                  env.verifyToken(verifyToken, VerifyEmail, after.tokens).value.user != owner)
  {
    var owner := env.verifyToken(verifyToken, VerifyEmail, store.tokens).value.user;
    var after := VerifyEmailOp(store, verifyToken, env).value;
    var again := env.verifyToken(verifyToken, VerifyEmail, after.tokens);
    if again.Some? {
      assert again.value in after.tokens && again.value.tokenType == VerifyEmail;
    }
  }

  /** Verifying the same owner's email a second time leaves the users as the first run left them. */
  lemma VerifyEmailAgainKeepsUsers(store: Store, first: string, second: string, env: Env)
    requires VerifyEmailOp(store, first, env).Ok?
    requires var after := VerifyEmailOp(store, first, env).value;
             && VerifyEmailOp(after, second, env).Ok?
             && env.verifyToken(second, VerifyEmail, after.tokens).value.user
                == env.verifyToken(first, VerifyEmail, store.tokens).value.user
    ensures var after := VerifyEmailOp(store, first, env).value;
            VerifyEmailOp(after, second, env).value.users == after.users
  {
    var owner := env.verifyToken(first, VerifyEmail, store.tokens).value.user;
    var i := FindById(store.users, owner).value;
    var after := VerifyEmailOp(store, first, env).value;
    FindByIdAfterUpdate(store.users, i, store.users[i].(isEmailVerified := true), owner);
    assert FindById(after.users, owner) == Some(i);
    assert after.users[i := after.users[i].(isEmailVerified := true)] == after.users;
  }

  /** The document `User.create` receives for a first Google sign-in. */
  function GoogleUserInput(payload: GooglePayload): UserInput {
    UserInput(payload.name, payload.email, None, Some(payload.sub),
              if Truthy(payload.picture) then payload.picture else None, None, None, Some(true))
  }

  /**
   * `loginWithGoogle`: 401 only for an invalid ID token; then look up by Google id, else link by
   * email, else create. Returns the new user collection and the signed-in user.
   */
  function LoginWithGoogle(users: seq<User>, idToken: string, env: Env): (r: Result<(seq<User>, User), ApiError>)
    ensures r.Err? <==> env.verifyIdToken(idToken).None?
    ensures r.Err? ==> r.error == ApiError(Unauthorized, "Invalid Google token")
    ensures r.Ok? ==>
              var p := env.verifyIdToken(idToken).value;
              var (after, user) := r.value;
              match FindByGoogleId(users, p.sub)
              case Some(i) =>
                && after == users[i := user]
                && user == users[i].(picture := user.picture)
                && (Truthy(p.picture) ==> user.picture == p.picture)
                && (!Truthy(p.picture) ==> user == users[i])
              case None =>
                match FindByEmail(users, p.email)
                case Some(i) =>
                  && after == users[i := user]
                  && user == users[i].(googleId := Some(p.sub), picture := user.picture)
                  && user.picture == (if Truthy(p.picture) then p.picture else users[i].picture)
                case None =>
                  && after == users + [user]
                  && (forall j :: 0 <= j < |users| ==> users[j].id != user.id)
                  && user.googleId == Some(p.sub) && user.isEmailVerified && user.password.None?
                  && user.email == NormalizeEmail(p.email) && user.role == DefaultRole
                  && user.picture == (if Truthy(p.picture) then p.picture else None)
  {
    match env.verifyIdToken(idToken)
    case None => Err(ApiError(Unauthorized, "Invalid Google token"))
    case Some(p) =>
      match FindByGoogleId(users, p.sub)
      case Some(i) =>
        var user := users[i];
        if Truthy(p.picture) && user.picture != p.picture then
          var updated := PreSave(user.(picture := p.picture), false, env.hasher);
          Ok((users[i := updated], updated))
        else
          Ok((users, user))
      case None =>
        match FindByEmail(users, p.email)
        case Some(i) =>
          var linked := users[i].(googleId := Some(p.sub));
          var linked' := if Truthy(p.picture) then linked.(picture := p.picture) else linked;
          var saved := PreSave(linked', false, env.hasher);
          Ok((users[i := saved], saved))
        case None =>
          var created := CreateUser(NewUserId(users), GoogleUserInput(p), env.hasher);
          Ok((users + [created], created))
  }

  /** Signing in again with the same Google token finds the same user and changes nothing. */
  lemma GoogleLoginIsStable(users: seq<User>, idToken: string, env: Env)
    requires env.verifyIdToken(idToken).Some?
    ensures var (after, user) := LoginWithGoogle(users, idToken, env).value;
            LoginWithGoogle(after, idToken, env) == Ok((after, user))
  {
    var p := env.verifyIdToken(idToken).value;
    var (after, user) := LoginWithGoogle(users, idToken, env).value;
    match FindByGoogleId(users, p.sub)
    case Some(i) =>
      GoogleIdFirstAt(after, i, p.sub);
      GoogleLoginFindsLinked(after, i, idToken, env);
    case None =>
      match FindByEmail(users, p.email)
      case Some(i) =>
        GoogleIdFirstAt(after, i, p.sub);
        GoogleLoginFindsLinked(after, i, idToken, env);
      case None =>
        GoogleIdFirstAt(after, |users|, p.sub);
        GoogleLoginFindsLinked(after, |users|, idToken, env);
  }

  /** The lookup by Google id finds `i` when `i` carries the id and no earlier user does. */
  lemma GoogleIdFirstAt(users: seq<User>, i: nat, googleId: string)
    requires i < |users| && users[i].googleId == Some(googleId)
    requires forall j :: 0 <= j < i ==> users[j].googleId != Some(googleId)
    ensures FindByGoogleId(users, googleId) == Some(i)
  {
  }

  /** A user already linked to the token's Google id, with its picture, signs in unchanged. */
  lemma GoogleLoginFindsLinked(users: seq<User>, i: nat, idToken: string, env: Env)
    requires env.verifyIdToken(idToken).Some?
    requires var p := env.verifyIdToken(idToken).value;
             && FindByGoogleId(users, p.sub) == Some(i)
             && (Truthy(p.picture) ==> users[i].picture == p.picture)
    ensures LoginWithGoogle(users, idToken, env) == Ok((users, users[i]))
  {
  }

  /** `changePassword`: 404 for a missing user, then 400 without a password, then 401 on a mismatch. */
  function ChangePassword(store: Store, userId: UserId, currentPassword: string, newPassword: string, env: Env)
    : (r: Result<Store, ApiError>)
    ensures FindById(store.users, userId).None? <==> r == Err(ApiError(NotFound, "User not found"))
    ensures var found := FindById(store.users, userId);
            found.Some? && !Truthy(store.users[found.value].password) <==>
              r == Err(ApiError(BadRequest, "Cannot change password for accounts without a password"))
    ensures var found := FindById(store.users, userId);
            found.Some? && Truthy(store.users[found.value].password)
            && !IsPasswordMatch(store.users[found.value], currentPassword, env.hasher) <==>
              r == Err(ApiError(Unauthorized, "Current password is incorrect"))
    ensures r.Ok? <==>
              var found := FindById(store.users, userId);
              found.Some? && Truthy(store.users[found.value].password)
              && IsPasswordMatch(store.users[found.value], currentPassword, env.hasher)
    ensures r.Ok? ==>
              var i := FindById(store.users, userId).value;
              && IsPasswordMatch(store.users[i], currentPassword, env.hasher)
              && r.value.tokens == store.tokens
              && r.value.users == store.users[i := SavePassword(store.users[i], newPassword, env.hasher)]
  {
    match FindById(store.users, userId)
    case None => Err(ApiError(NotFound, "User not found"))
    case Some(i) =>
      var user := store.users[i];
      if !Truthy(user.password) then
        Err(ApiError(BadRequest, "Cannot change password for accounts without a password"))
      else if !IsPasswordMatch(user, currentPassword, env.hasher) then
        Err(ApiError(Unauthorized, "Current password is incorrect"))
      else
        Ok(store.(users := store.users[i := SavePassword(user, newPassword, env.hasher)]))
  }

  /**
   * After a change, logging in with the trimmed new password succeeds, provided it is not blank, it
   * differs from the stored value, and the user is the one their email finds.
   */
  lemma ChangeThenLogin(store: Store, userId: UserId, currentPassword: string, newPassword: string, env: Env)
    requires VerifiesOwnHash(env.hasher)
    requires ChangePassword(store, userId, currentPassword, newPassword, env).Ok?
    requires Trim(newPassword) != ""
    ensures var i := FindById(store.users, userId).value;
            var email := store.users[i].email;
            var after := ChangePassword(store, userId, currentPassword, newPassword, env).value;
            store.users[i].password != Some(Trim(newPassword)) && FindByEmail(store.users, email) == Some(i) ==>
              LoginWithEmailAndPassword(after, email, Trim(newPassword), env).Ok?
  {
    var i := FindById(store.users, userId).value;
    if store.users[i].password != Some(Trim(newPassword)) && FindByEmail(store.users, store.users[i].email) == Some(i) {
      SavedPasswordLogsIn(store.users, i, newPassword, env);
    }
  }

  /**
   * With bcrypt, a change to a different password retires the old one: the current password, when
   * bcrypt reads all of it, no longer matches the user.
   */
  lemma ChangeRetiresOldPassword(store: Store, userId: UserId, currentPassword: string, newPassword: string, env: Env)
    requires BcryptHasher(env.hasher)
    requires ChangePassword(store, userId, currentPassword, newPassword, env).Ok?
    requires Trim(newPassword) != ""
    ensures var i := FindById(store.users, userId).value;
            var after := ChangePassword(store, userId, currentPassword, newPassword, env).value;
            && (store.users[i].password != Some(Trim(newPassword)) ==>
                  after.users[i].password == Some(env.hasher.hash(Trim(newPassword))))
            && (store.users[i].password != Some(Trim(newPassword)) && currentPassword != Trim(newPassword)
                && FitsBcryptKey(currentPassword) && FitsBcryptKey(Trim(newPassword)) ==>
                  !IsPasswordMatch(after.users[i], currentPassword, env.hasher))
  {
  }
}

=== FILE: collections.dfy ===
/** Sequence operations that stand in for the document store's queries. */
module Collections {
  import opened Wrappers

  /** Index of the first element satisfying `matches`, as `findOne` returns the first matching document. */
  function FindFirst<T>(s: seq<T>, matches: T -> bool): (r: Option<nat>)
    ensures r.Some? ==> r.value < |s| && matches(s[r.value])
    ensures r.Some? ==> forall j :: 0 <= j < r.value ==> !matches(s[j])
    ensures r.None? ==> forall j :: 0 <= j < |s| ==> !matches(s[j])
  {
    if |s| == 0 then None
    else if matches(s[0]) then Some(0)
    else
      match FindFirst(s[1..], matches)
      case None => None
      case Some(k) => Some(k + 1)
  }

  /** The first match is at `i` when `s[i]` matches and nothing before it does. */
  lemma {:induction false} FindFirstAt<T>(s: seq<T>, matches: T -> bool, i: nat)
    requires i < |s| && matches(s[i])
    requires forall j :: 0 <= j < i ==> !matches(s[j])
    ensures FindFirst(s, matches) == Some(i)
  {
    if i > 0 {
      assert forall j :: 0 <= j < i - 1 ==> s[1..][j] == s[j + 1];
      FindFirstAt(s[1..], matches, i - 1);
    }
  }

  /** `s` without its element at position `i`. */
  function RemoveAt<T>(s: seq<T>, i: nat): (r: seq<T>)
    requires i < |s|
    ensures |r| == |s| - 1
    ensures forall j :: 0 <= j < i ==> r[j] == s[j]
    ensures forall j :: i <= j < |r| ==> r[j] == s[j + 1]
    ensures multiset(r) + multiset{s[i]} == multiset(s)
  {
    assert s == s[..i] + [s[i]] + s[i + 1..];
    s[..i] + s[i + 1..]
  }

  /** The elements of `s` that `keep` accepts, in their original order (`deleteMany` of the rest). */
  function Filter<T(!new)>(s: seq<T>, keep: T -> bool): (r: seq<T>)
    ensures |r| <= |s|
    ensures forall x :: x in r <==> x in s && keep(x)
  {
    if |s| == 0 then []
    else if keep(s[0]) then [s[0]] + Filter(s[1..], keep)
    else Filter(s[1..], keep)
  }
}

=== FILE: file_service.dfy ===
/**
 * `src/services/file.service.js`: the image compression control policy, the upload MIME/size policy
 * and file lookup. The pixel codec (sharp) is a parameter: `Codec.metadata` decodes an image's width
 * and `Codec.encode` runs one resize-and-encode pipeline; both may fail.
 */
module FileService {
  import opened Wrappers
  import opened ApiErrors
  import opened Text
  import opened UserModel

  /** The size budget of a stored image, 100 KiB. */
  const MaxFileSize: nat := 100 * 1024
  const InitialQuality: int := 80
  const QualityStep: int := 10
  const MinQuality: int := 10
  const MaxWidth: nat := 800
  const PngCompressionLevel: nat := 9
  const FallbackWidth: nat := 400
  const FallbackQuality: int := 60

  /** How many qualities the loop can try: 80, 70, ..., 10. */
  const MaxAttempts: nat := ((InitialQuality - MinQuality) / QualityStep + 1) as nat

  /** `isImage`: the MIME type starts with `image/`. */
  function IsImage(mimeType: string): (r: bool)
    ensures r <==> |mimeType| >= 6 && mimeType[..6] == "image/"
  {
    "image/" <= mimeType
  }

  function Min(a: int, b: int): int {
    if a <= b then a else b
  }

  /** The output encodings sharp is asked for. */
  datatype Format = Png | Webp | Jpeg

  /** The encoder options of one pipeline, as passed to `.png(...)`, `.webp(...)` or `.jpeg(...)`. */
  datatype Encoding = PngEncoding(quality: int, compressionLevel: nat) | WebpEncoding(quality: int) | JpegEncoding(quality: int) {
    function Format(): Format {
      match this
      case PngEncoding(_, _) => Png
      case WebpEncoding(_) => Webp
      case JpegEncoding(_) => Jpeg
    }
  }

  /** One pipeline: resize to `width` without enlargement, then encode. */
  datatype EncodeRequest = EncodeRequest(width: nat, encoding: Encoding)

  datatype Codec = Codec(
    metadata: seq<byte> -> Option<nat>,
    encode: (seq<byte>, EncodeRequest) -> Option<seq<byte>>)

  datatype CompressError = DecodeError | EncodeError(request: EncodeRequest)

  /**
   * What compression returns: the bytes, the loop requests issued in order, and whether the fallback
   * pipeline produced the bytes. Every request is applied to the caller's original buffer.
   */
  datatype Compressed = Compressed(data: seq<byte>, attempts: seq<EncodeRequest>, usedFallback: bool)

  /** The format policy: PNG and WEBP keep their format, every other type becomes JPEG. */
  function OutputFormat(mimeType: string): (f: Format)
    ensures f != Jpeg <==> mimeType == "image/png" || mimeType == "image/webp"
    ensures FormatMime(f) == mimeType <==> mimeType in {"image/png", "image/webp", "image/jpeg"}
  {
    if mimeType == "image/png" then Png
    else if mimeType == "image/webp" then Webp
    else Jpeg
  }

  function FormatMime(format: Format): (mime: string)
    ensures IsImage(mime)
  {
    match format
    case Png => "image/png"
    case Webp => "image/webp"
    case Jpeg => "image/jpeg"
  }

  /** The request of one loop iteration. */
  function LoopRequest(mimeType: string, originalWidth: nat, quality: int): EncodeRequest {
    var width := Min(originalWidth, MaxWidth) as nat;
    match OutputFormat(mimeType)
    case Png => EncodeRequest(width, PngEncoding(quality, PngCompressionLevel))
    case Webp => EncodeRequest(width, WebpEncoding(quality))
    case Jpeg => EncodeRequest(width, JpegEncoding(quality))
  }

  /** The last-resort request: JPEG at width 400, quality 60, whatever the input format. */
  const FallbackRequest: EncodeRequest := EncodeRequest(FallbackWidth, JpegEncoding(FallbackQuality))

  /** The `while` loop: try the current quality while the result is over budget and quality is at least 10. */
  function QualityLoop(codec: Codec, buffer: seq<byte>, mimeType: string, width: nat, quality: int, state: Compressed)
    : (r: Result<Compressed, CompressError>)
    ensures r.Err? ==> r.error.EncodeError?
    ensures r.Ok? ==> r.value.usedFallback == state.usedFallback
    decreases quality
  {
    if |state.data| > MaxFileSize && quality >= MinQuality then
      var request := LoopRequest(mimeType, width, quality);
      match codec.encode(buffer, request)
      case None => Err(EncodeError(request))
      case Some(out) =>
        QualityLoop(codec, buffer, mimeType, width, quality - QualityStep,
                    Compressed(out, state.attempts + [request], state.usedFallback))
    else
      Ok(state)
  }

  /** `compressImage`: decode the metadata, run the quality loop, and fall back if still over budget. */
  function CompressImage(codec: Codec, buffer: seq<byte>, mimeType: string): (r: Result<Compressed, CompressError>)
    ensures r == Err(DecodeError) <==> codec.metadata(buffer).None?
    ensures codec.metadata(buffer).Some? && |buffer| <= MaxFileSize ==> r == Ok(Compressed(buffer, [], false))
    ensures r.Ok? && |r.value.data| > MaxFileSize ==> r.value.usedFallback
  {
    match codec.metadata(buffer)
    case None => Err(DecodeError)
    case Some(width) =>
      var looped :- QualityLoop(codec, buffer, mimeType, width, InitialQuality, Compressed(buffer, [], false));
      if |looped.data| > MaxFileSize then
        match codec.encode(buffer, FallbackRequest)
        case None => Err(EncodeError(FallbackRequest))
        case Some(out) => Ok(Compressed(out, looped.attempts, true))
      else
        Ok(looped)
  }

  // ---------------------------------------------------------------------------------------------
  // An independent description of the same policy: a fixed plan of requests and the first one
  // that stops it.

  function QualityAt(i: nat): int {
    InitialQuality - QualityStep * i
  }

  /** The loop's schedule, 80 down to 10 in steps of 10, as requests for this input. */
  function Plan(mimeType: string, originalWidth: nat): (plan: seq<EncodeRequest>) {
    seq(MaxAttempts, i requires 0 <= i < MaxAttempts => LoopRequest(mimeType, originalWidth, QualityAt(i)))
  }

  /** The encoder succeeded on `request` but its output is still over budget. */
  predicate Oversized(codec: Codec, buffer: seq<byte>, request: EncodeRequest) {
    match codec.encode(buffer, request)
    case Some(out) => |out| > MaxFileSize
    case None => false
  }

  /** The first position at or after `from` whose request fails or fits, or `|plan|` if none does. */
  function FirstStop(codec: Codec, buffer: seq<byte>, plan: seq<EncodeRequest>, from: nat): (k: nat)
    requires from <= |plan|
    ensures from <= k <= |plan|
    ensures forall i :: from <= i < k ==> Oversized(codec, buffer, plan[i])
    ensures k < |plan| ==> !Oversized(codec, buffer, plan[k])
    decreases |plan| - from
  {
    if from == |plan| || !Oversized(codec, buffer, plan[from]) then from
    else FirstStop(codec, buffer, plan, from + 1)
  }

  /** Compression stated through the plan: stop at the first request that fails or fits, else fall back. */
  function ReferenceCompress(codec: Codec, buffer: seq<byte>, mimeType: string): Result<Compressed, CompressError> {
    match codec.metadata(buffer)
    case None => Err(DecodeError)
    case Some(width) =>
      if |buffer| <= MaxFileSize then Ok(Compressed(buffer, [], false))
      else
        var plan := Plan(mimeType, width);
        var k := FirstStop(codec, buffer, plan, 0);
        if k < |plan| then
          match codec.encode(buffer, plan[k])
          case None => Err(EncodeError(plan[k]))
          case Some(out) => Ok(Compressed(out, plan[..k + 1], false))
        else
          match codec.encode(buffer, FallbackRequest)
          case None => Err(EncodeError(FallbackRequest))
          case Some(out) => Ok(Compressed(out, plan, true))
  }

  /** The loop's quality schedule: eight values, 80 down to 10, after which the loop condition fails. */
  lemma QualitySchedule()
    ensures MaxAttempts == 8
    ensures seq(MaxAttempts, (i: nat) => QualityAt(i)) == [80, 70, 60, 50, 40, 30, 20, 10]
    ensures forall i, j :: 0 <= i < j < MaxAttempts ==> QualityAt(i) > QualityAt(j)
    ensures forall i :: 0 <= i < MaxAttempts ==> QualityAt(i) >= MinQuality
    ensures QualityAt(MaxAttempts) < MinQuality
  {
  }

  /** From iteration `j` on, the loop does what the plan says from position `j` on. */
  lemma {:induction false} LoopFollowsPlan(codec: Codec, buffer: seq<byte>, mimeType: string, width: nat, j: nat, state: Compressed)
    requires j <= MaxAttempts
    requires |state.data| > MaxFileSize
    requires state.attempts == Plan(mimeType, width)[..j] && !state.usedFallback
    ensures var plan := Plan(mimeType, width);
            var k := FirstStop(codec, buffer, plan, j);
            var r := QualityLoop(codec, buffer, mimeType, width, QualityAt(j), state);
            && (k < |plan| && codec.encode(buffer, plan[k]).None? ==> r == Err(EncodeError(plan[k])))
            && (k < |plan| && codec.encode(buffer, plan[k]).Some? ==>
                  r == Ok(Compressed(codec.encode(buffer, plan[k]).value, plan[..k + 1], false)))
            && (k == |plan| ==> r.Ok? && r.value.attempts == plan && |r.value.data| > MaxFileSize && !r.value.usedFallback)
    decreases MaxAttempts - j
  {
    var plan := Plan(mimeType, width);
    if j < MaxAttempts {
      var request := plan[j];
      assert request == LoopRequest(mimeType, width, QualityAt(j));
      assert QualityAt(j) >= MinQuality;
      match codec.encode(buffer, request)
      case None =>
        assert FirstStop(codec, buffer, plan, j) == j;
        assert QualityLoop(codec, buffer, mimeType, width, QualityAt(j), state) == Err(EncodeError(request));
      case Some(out) =>
        var next := Compressed(out, state.attempts + [request], false);
        assert next.attempts == plan[..j + 1];
        assert QualityAt(j) - QualityStep == QualityAt(j + 1);
        assert QualityLoop(codec, buffer, mimeType, width, QualityAt(j), state)
            == QualityLoop(codec, buffer, mimeType, width, QualityAt(j + 1), next);
        if |out| > MaxFileSize {
          assert FirstStop(codec, buffer, plan, j) == FirstStop(codec, buffer, plan, j + 1);
          LoopFollowsPlan(codec, buffer, mimeType, width, j + 1, next);
        } else {
          assert FirstStop(codec, buffer, plan, j) == j;
        }
    } else {
      assert plan[..j] == plan;
    }
  }

  /** The loop implementation and the plan-based description agree on every input. */
  lemma CompressImageMatchesReference(codec: Codec, buffer: seq<byte>, mimeType: string)
    ensures CompressImage(codec, buffer, mimeType) == ReferenceCompress(codec, buffer, mimeType)
  {
    match codec.metadata(buffer)
    case None =>
    case Some(width) =>
      if |buffer| > MaxFileSize {
        assert Plan(mimeType, width)[..0] == [];
        LoopFollowsPlan(codec, buffer, mimeType, width, 0, Compressed(buffer, [], false));
      }
  }

  // ---------------------------------------------------------------------------------------------
  // Properties of `compressImage`.

  /** Loop attempts follow the schedule: at most eight, qualities strictly descending, width capped at 800, format fixed by the MIME type. */
  lemma AttemptsFollowSchedule(codec: Codec, buffer: seq<byte>, mimeType: string)
    ensures var r := CompressImage(codec, buffer, mimeType);
            r.Ok? ==>
              var attempts := r.value.attempts;
              var width := codec.metadata(buffer).value;
              && |attempts| <= MaxAttempts
              && (forall i :: 0 <= i < |attempts| ==> attempts[i] == LoopRequest(mimeType, width, QualityAt(i)))
              && (forall i :: 0 <= i < |attempts| ==>
                    && attempts[i].width == Min(width, MaxWidth) <= width
                    && attempts[i].encoding.Format() == OutputFormat(mimeType)
                    && (attempts[i].encoding.PngEncoding? ==> attempts[i].encoding.compressionLevel == PngCompressionLevel))
              && (forall i, j :: 0 <= i < j < |attempts| ==> attempts[i].encoding.quality > attempts[j].encoding.quality)
  {
    CompressImageMatchesReference(codec, buffer, mimeType);
  }

  /**
   * The returned bytes are the input (nothing issued), the output of the last loop attempt (which fits,
   * every earlier one did not), or the fallback's output; they are over budget only in the last case.
   */
  lemma ResultProvenance(codec: Codec, buffer: seq<byte>, mimeType: string)
    ensures var r := CompressImage(codec, buffer, mimeType);
            r.Ok? ==>
              var c := r.value;
              && (forall i :: 0 <= i < |c.attempts| - 1 ==> Oversized(codec, buffer, c.attempts[i]))
              && (c.attempts == [] && !c.usedFallback ==> c.data == buffer && |buffer| <= MaxFileSize)
              && (c.attempts != [] && !c.usedFallback ==>
                    codec.encode(buffer, c.attempts[|c.attempts| - 1]) == Some(c.data) && |c.data| <= MaxFileSize)
              && (c.usedFallback ==> codec.encode(buffer, FallbackRequest) == Some(c.data))
              && (|c.data| > MaxFileSize ==> c.usedFallback)
  {
    CompressImageMatchesReference(codec, buffer, mimeType);
  }

  /** The fallback runs exactly when all eight loop outputs, the last one included, were over budget. */
  lemma FallbackExactlyWhenLoopExhausted(codec: Codec, buffer: seq<byte>, mimeType: string)
    ensures var r := CompressImage(codec, buffer, mimeType);
            r.Ok? ==>
              var c := r.value;
              (c.usedFallback <==>
                 && |buffer| > MaxFileSize
                 && |c.attempts| == MaxAttempts
                 && (forall i :: 0 <= i < MaxAttempts ==> Oversized(codec, buffer, c.attempts[i])))
  {
    CompressImageMatchesReference(codec, buffer, mimeType);
  }

  /** Once the loop is exhausted the fallback's output is returned, however large, without an error. */
  lemma FallbackIsReturnedEvenOverBudget(codec: Codec, buffer: seq<byte>, mimeType: string, out: seq<byte>)
    requires codec.metadata(buffer).Some? && |buffer| > MaxFileSize
    requires forall i :: 0 <= i < MaxAttempts ==> Oversized(codec, buffer, Plan(mimeType, codec.metadata(buffer).value)[i])
    requires codec.encode(buffer, FallbackRequest) == Some(out)
    ensures CompressImage(codec, buffer, mimeType) == Ok(Compressed(out, Plan(mimeType, codec.metadata(buffer).value), true))
  {
    var plan := Plan(mimeType, codec.metadata(buffer).value);
    CompressImageMatchesReference(codec, buffer, mimeType);
    assert FirstStop(codec, buffer, plan, 0) == |plan|;
  }

  /** An encoder failure aborts compression and names a request that was actually issued. */
  lemma EncodeErrorProvenance(codec: Codec, buffer: seq<byte>, mimeType: string)
    ensures var r := CompressImage(codec, buffer, mimeType);
            r.Err? && r.error.EncodeError? ==>
              && codec.metadata(buffer).Some?
              && |buffer| > MaxFileSize
              && codec.encode(buffer, r.error.request).None?
              && (r.error.request in Plan(mimeType, codec.metadata(buffer).value) || r.error.request == FallbackRequest)
  {
    CompressImageMatchesReference(codec, buffer, mimeType);
  }

  /** Compressing a result that is within budget again gives it back unchanged. */
  lemma RecompressIsIdentity(codec: Codec, buffer: seq<byte>, mimeType: string)
    requires CompressImage(codec, buffer, mimeType).Ok?
    requires |CompressImage(codec, buffer, mimeType).value.data| <= MaxFileSize
    requires codec.metadata(CompressImage(codec, buffer, mimeType).value.data).Some?
    ensures var data := CompressImage(codec, buffer, mimeType).value.data;
            CompressImage(codec, data, mimeType) == Ok(Compressed(data, [], false))
  {
  }

  /**
   * For a JPEG-bound image exactly 400 pixels wide the fallback repeats the quality-60 loop request,
   * so whenever the fallback runs its result is over budget.
   */
  lemma FallbackRepeatsLoopRequestAt400(codec: Codec, buffer: seq<byte>, mimeType: string)
    requires OutputFormat(mimeType) == Jpeg && codec.metadata(buffer) == Some(FallbackWidth)
    ensures Plan(mimeType, FallbackWidth)[2] == FallbackRequest
    ensures var r := CompressImage(codec, buffer, mimeType);
            r.Ok? && r.value.usedFallback ==> |r.value.data| > MaxFileSize
  {
    var plan := Plan(mimeType, FallbackWidth);
    assert plan[2] == FallbackRequest;
    CompressImageMatchesReference(codec, buffer, mimeType);
  }

  // ---------------------------------------------------------------------------------------------
  // `uploadFile` and `getFileById`.

  /** The multer file handed to `uploadFile`. */
  datatype UploadedFile = UploadedFile(originalname: string, mimetype: string, size: nat, buffer: seq<byte>)

  /** The stored file document. */
  datatype FileDoc = FileDoc(filename: string, originalName: string, mimeType: string, size: nat, data: seq<byte>, uploadedBy: UserId)

  type FileId = nat

  /** Why `uploadFile` rejects: sharp failed, or `File.create` failed validation on these paths. */
  datatype UploadError = CompressFailed(cause: CompressError) | ValidationFailed(paths: set<string>)

  /**
   * The paths whose `required` validator fails: an empty string (after the `trim` setters for the two
   * names) or an empty buffer. `size` is a number and `uploadedBy` is always set, so both pass.
   */
  function MissingPaths(filename: string, originalName: string, mimeType: string, data: seq<byte>): (paths: set<string>)
    ensures "filename" in paths <==> filename == ""
    ensures "originalName" in paths <==> originalName == ""
    ensures "mimeType" in paths <==> mimeType == ""
    ensures "data" in paths <==> data == []
    ensures paths <= {"filename", "originalName", "mimeType", "data"}
  {
    (if filename == "" then {"filename"} else {})
    + (if originalName == "" then {"originalName"} else {})
    + (if mimeType == "" then {"mimeType"} else {})
    + (if data == [] then {"data"} else {})
  }

  /** `File.create`: the `trim` setters of both names, then every path's `required` validator. */
  function CreateFile(doc: FileDoc): (r: Result<FileDoc, UploadError>)
    ensures r.Ok? <==> Trim(doc.originalName) != "" && Trim(doc.filename) != "" && doc.mimeType != "" && doc.data != []
    ensures r.Ok? ==> r.value == doc.(filename := Trim(doc.filename), originalName := Trim(doc.originalName))
    ensures r.Err? ==> r.error.ValidationFailed? && r.error.paths != {}
  {
    var trimmed := doc.(filename := Trim(doc.filename), originalName := Trim(doc.originalName));
    var missing := MissingPaths(trimmed.filename, trimmed.originalName, trimmed.mimeType, trimmed.data);
    if missing == {} then Ok(trimmed)
    else
      assert "filename" in missing || "originalName" in missing || "mimeType" in missing || "data" in missing;
      Err(ValidationFailed(missing))
  }

  /** The label `uploadFile` stores for an image: the MIME type of the format the loop encodes to. */
  function StoredImageMime(mimeType: string): (r: string)
    ensures r == FormatMime(OutputFormat(mimeType))
  {
    if mimeType != "image/png" && mimeType != "image/webp" then "image/jpeg" else mimeType
  }

  /**
   * `File.create` on the document `uploadFile` builds; `timestamp` is the rendering of `Date.now()`.
   * It fails only on a blank original name, an empty MIME type or an empty buffer.
   */
  function StoreFile(file: UploadedFile, userId: UserId, timestamp: string, mimeType: string, size: nat, data: seq<byte>)
    : (r: Result<FileDoc, UploadError>)
    ensures r.Ok? <==> Trim(file.originalname) != "" && mimeType != "" && data != []
    ensures r.Ok? ==> r.value == FileDoc(Trim(timestamp + "-" + file.originalname), Trim(file.originalname), mimeType, size, data, userId)
  {
    NamedFileHasFilename(timestamp, file.originalname);
    CreateFile(FileDoc(timestamp + "-" + file.originalname, file.originalname, mimeType, size, data, userId))
  }

  /** `uploadFile` as written: images are compressed and relabelled from their input type. */
  function UploadFile(codec: Codec, file: UploadedFile, userId: UserId, timestamp: string): (r: Result<FileDoc, UploadError>)
    ensures r.Ok? ==> r.value.filename == Trim(timestamp + "-" + file.originalname)
    ensures r.Ok? ==> r.value.originalName == Trim(file.originalname) && r.value.uploadedBy == userId
    ensures Trim(file.originalname) == "" ==> r.Err?
    ensures !IsImage(file.mimetype) ==>
              && (r.Ok? <==> Trim(file.originalname) != "" && file.mimetype != "" && file.buffer != [])
              && (r.Ok? ==> r.value.mimeType == file.mimetype && r.value.size == file.size && r.value.data == file.buffer)
    ensures IsImage(file.mimetype) ==>
              var c := CompressImage(codec, file.buffer, file.mimetype);
              && (c.Err? ==> r == Err(CompressFailed(c.error)))
              && (c.Ok? ==> (r.Ok? <==> Trim(file.originalname) != "" && c.value.data != []))
              && (r.Ok? ==> r.value.data == c.value.data && r.value.size == |c.value.data|)
              && (r.Ok? ==> r.value.mimeType == StoredImageMime(file.mimetype))
    ensures r.Err? && !(IsImage(file.mimetype) && CompressImage(codec, file.buffer, file.mimetype).Err?) ==>
              r.error.ValidationFailed?
  {
    if IsImage(file.mimetype) then
      match CompressImage(codec, file.buffer, file.mimetype)
      case Err(e) => Err(CompressFailed(e))
      case Ok(c) => StoreFile(file, userId, timestamp, StoredImageMime(file.mimetype), |c.data|, c.data)
    else
      StoreFile(file, userId, timestamp, file.mimetype, file.size, file.buffer)
  }

  /** The stored file name always keeps the `-` after the timestamp, so only a blank original name is missing. */
  lemma NamedFileHasFilename(timestamp: string, originalname: string)
    ensures Trim(timestamp + "-" + originalname) != ""
  {
    var s := timestamp + "-" + originalname;
    assert s[|timestamp|] == '-' && !IsWhitespace('-');
  }

  /** The MIME type of compressed bytes: the input's own when nothing was re-encoded, else the encoding's. */
  function ContentMime(c: Compressed, inputMime: string): string {
    if c.usedFallback then FormatMime(FallbackRequest.encoding.Format())
    else if c.attempts == [] then inputMime
    else FormatMime(c.attempts[|c.attempts| - 1].encoding.Format())
  }

  /** The label the comment "Update mimeType if converted to JPEG" asks for. */
  function CorrectedImageMime(c: Compressed, mimeType: string): (mime: string)
    ensures IsImage(mimeType) ==> IsImage(mime)
  {
    if c.usedFallback then "image/jpeg"
    else if c.attempts == [] then mimeType
    else FormatMime(OutputFormat(mimeType))
  }

  /** `uploadFile` with the label taken from how the stored bytes were produced. */
  function UploadFileCorrected(codec: Codec, file: UploadedFile, userId: UserId, timestamp: string): (r: Result<FileDoc, UploadError>)
    ensures IsImage(file.mimetype) ==>
              var c := CompressImage(codec, file.buffer, file.mimetype);
              r.Ok? ==> c.Ok? && r.value.mimeType == CorrectedImageMime(c.value, file.mimetype)
  {
    if IsImage(file.mimetype) then
      match CompressImage(codec, file.buffer, file.mimetype)
      case Err(e) => Err(CompressFailed(e))
      case Ok(c) => StoreFile(file, userId, timestamp, CorrectedImageMime(c, file.mimetype), |c.data|, c.data)
    else
      StoreFile(file, userId, timestamp, file.mimetype, file.size, file.buffer)
  }

  /** The correction keeps every outcome of `uploadFile` and every stored field except the image label. */
  lemma CorrectionKeepsAllButLabel(codec: Codec, file: UploadedFile, userId: UserId, timestamp: string)
    ensures var asWritten := UploadFile(codec, file, userId, timestamp);
            var corrected := UploadFileCorrected(codec, file, userId, timestamp);
            && (!IsImage(file.mimetype) ==> corrected == asWritten)
            && (corrected.Err? <==> asWritten.Err?)
            && (corrected.Ok? ==> corrected.value == asWritten.value.(mimeType := corrected.value.mimeType))
  {
    if IsImage(file.mimetype) {
      CorrectionKeepsImageFields(codec, file, userId, timestamp);
    } else {
      var stored := StoreFile(file, userId, timestamp, file.mimetype, file.size, file.buffer);
      assert UploadFile(codec, file, userId, timestamp) == stored;
      assert UploadFileCorrected(codec, file, userId, timestamp) == stored;
    }
  }

  lemma CorrectionKeepsImageFields(codec: Codec, file: UploadedFile, userId: UserId, timestamp: string)
    requires IsImage(file.mimetype)
    ensures var asWritten := UploadFile(codec, file, userId, timestamp);
            var corrected := UploadFileCorrected(codec, file, userId, timestamp);
            && (corrected.Err? <==> asWritten.Err?)
            && (corrected.Ok? ==> corrected.value == asWritten.value.(mimeType := corrected.value.mimeType))
  {
    var c := CompressImage(codec, file.buffer, file.mimetype);
    if c.Ok? {
      var asWritten := StoreFile(file, userId, timestamp, StoredImageMime(file.mimetype), |c.value.data|, c.value.data);
      var corrected := StoreFile(file, userId, timestamp, CorrectedImageMime(c.value, file.mimetype), |c.value.data|, c.value.data);
      assert UploadFile(codec, file, userId, timestamp) == asWritten;
      assert UploadFileCorrected(codec, file, userId, timestamp) == corrected;
      assert IsImage(StoredImageMime(file.mimetype)) && IsImage(CorrectedImageMime(c.value, file.mimetype));
    }
  }

  /** With the correction the stored label always names the format of the stored bytes. */
  lemma CorrectedLabelMatchesContent(codec: Codec, file: UploadedFile, userId: UserId, timestamp: string)
    requires IsImage(file.mimetype)
    ensures var r := UploadFileCorrected(codec, file, userId, timestamp);
            r.Ok? ==> r.value.mimeType == ContentMime(CompressImage(codec, file.buffer, file.mimetype).value, file.mimetype)
  {
    var c := CompressImage(codec, file.buffer, file.mimetype);
    if c.Ok? {
      var mime := CorrectedImageMime(c.value, file.mimetype);
      assert UploadFileCorrected(codec, file, userId, timestamp)
          == StoreFile(file, userId, timestamp, mime, |c.value.data|, c.value.data);
      CorrectedMimeIsContentMime(codec, file.buffer, file.mimetype);
    }
  }

  lemma CorrectedMimeIsContentMime(codec: Codec, buffer: seq<byte>, mimeType: string)
    ensures var c := CompressImage(codec, buffer, mimeType);
            c.Ok? ==> CorrectedImageMime(c.value, mimeType) == ContentMime(c.value, mimeType)
  {
    AttemptsFollowSchedule(codec, buffer, mimeType);
  }

  /** The correction changes the label only for re-used bytes of another type and for fallback PNG/WEBP output. */
  lemma CorrectionOnlyChangesMismatches(codec: Codec, file: UploadedFile, userId: UserId, timestamp: string)
    requires IsImage(file.mimetype)
    ensures var asWritten := UploadFile(codec, file, userId, timestamp);
            var corrected := UploadFileCorrected(codec, file, userId, timestamp);
            var c := CompressImage(codec, file.buffer, file.mimetype);
            var m := file.mimetype;
            asWritten.Ok? ==>
              (asWritten.value.mimeType != corrected.value.mimeType <==>
                 || (c.value.attempts == [] && !c.value.usedFallback && StoredImageMime(m) != m)
                 || (c.value.usedFallback && (m == "image/png" || m == "image/webp")))
  {
  }

  /** As written, a decodable GIF already within budget keeps its GIF bytes but is stored as `image/jpeg`. */
  lemma SmallGifIsMislabelled(codec: Codec, file: UploadedFile, userId: UserId, timestamp: string)
    requires file.mimetype == "image/gif" && codec.metadata(file.buffer).Some?
    requires 0 < |file.buffer| <= MaxFileSize && Trim(file.originalname) != ""
    ensures var r := UploadFile(codec, file, userId, timestamp);
            && r.Ok? && r.value.data == file.buffer && r.value.mimeType == "image/jpeg"
            && ContentMime(CompressImage(codec, file.buffer, file.mimetype).value, file.mimetype) == "image/gif"
  {
    var c := Compressed(file.buffer, [], false);
    assert CompressImage(codec, file.buffer, file.mimetype) == Ok(c);
    GifIsStoredAsJpeg();
    var stored := StoreFile(file, userId, timestamp, "image/jpeg", |file.buffer|, file.buffer);
    assert UploadFile(codec, file, userId, timestamp) == stored;
    assert stored.Ok? && stored.value.mimeType == "image/jpeg" && stored.value.data == file.buffer;
    assert ContentMime(c, file.mimetype) == "image/gif";
  }

  lemma GifIsStoredAsJpeg()
    ensures IsImage("image/gif") && StoredImageMime("image/gif") == "image/jpeg"
  {
  }

  /** As written, a PNG that only the JPEG fallback could handle is stored as `image/png`. */
  lemma PngFallbackIsMislabelled(codec: Codec, file: UploadedFile, userId: UserId, timestamp: string, out: seq<byte>)
    requires file.mimetype == "image/png" && codec.metadata(file.buffer).Some?
    requires |file.buffer| > MaxFileSize && Trim(file.originalname) != ""
    requires forall i :: 0 <= i < MaxAttempts ==>
               Oversized(codec, file.buffer, Plan(file.mimetype, codec.metadata(file.buffer).value)[i])
    requires codec.encode(file.buffer, FallbackRequest) == Some(out) && out != []
    ensures var r := UploadFile(codec, file, userId, timestamp);
            var c := CompressImage(codec, file.buffer, file.mimetype);
            && r.Ok? && c.Ok? && c.value.usedFallback && r.value.data == out
            && r.value.mimeType == "image/png" && ContentMime(c.value, file.mimetype) == "image/jpeg"
  {
    FallbackIsReturnedEvenOverBudget(codec, file.buffer, file.mimetype, out);
    var c := Compressed(out, Plan(file.mimetype, codec.metadata(file.buffer).value), true);
    assert CompressImage(codec, file.buffer, file.mimetype) == Ok(c);
    PngKeepsItsLabel();
    var stored := StoreFile(file, userId, timestamp, "image/png", |out|, out);
    assert UploadFile(codec, file, userId, timestamp) == stored;
    assert stored.Ok? && stored.value.mimeType == "image/png" && stored.value.data == out;
    assert ContentMime(c, file.mimetype) == "image/jpeg";
  }

  lemma PngKeepsItsLabel()
    ensures IsImage("image/png") && StoredImageMime("image/png") == "image/png"
    ensures FormatMime(FallbackRequest.encoding.Format()) == "image/jpeg"
  {
  }

  /** `getFileById`: the stored document, or 404 "File not found". */
  function GetFileById(files: map<FileId, FileDoc>, fileId: FileId): (r: Result<FileDoc, ApiError>)
    ensures r.Ok? <==> fileId in files
    ensures r.Ok? ==> r.value == files[fileId]
    ensures r.Err? ==> r.error == ApiError(NotFound, "File not found")
  {
    if fileId in files then Ok(files[fileId]) else Err(ApiError(NotFound, "File not found"))
  }
}

=== FILE: me_controller.dfy ===
/** `src/controllers/me.controller.js`: the profile endpoints of the authenticated user. */
module MeController {
  import opened Wrappers
  import opened UserModel

  /** A JSON value of a request body (JSON has no `undefined`: an undefined field is an absent key). */
  datatype Json = Null | Bool(b: bool) | Number(n: int) | Str(s: string) | Composite

  /** The user the authentication middleware attached to the request. */
  datatype AuthUser = AuthUser(id: UserId)

  datatype Request = Request(user: AuthUser, body: map<string, Json>)

  /** The call the controller makes: `userService.updateUserById(userId, body)`. */
  datatype UpdateCall = UpdateCall(userId: UserId, body: map<string, Json>)

  /** The fields `updateMe` copies from the request body. */
  const ProfileFields: set<string> := {"name", "mobile"}

  /** `updateMe`: forward exactly the defined `name` and `mobile` fields, unchanged, for the caller's own id. */
  function UpdateMe(req: Request): (call: UpdateCall)
    ensures call.userId == req.user.id
    ensures "name" in call.body <==> "name" in req.body
    ensures "name" in call.body ==> call.body["name"] == req.body["name"]
    ensures "mobile" in call.body <==> "mobile" in req.body
    ensures "mobile" in call.body ==> call.body["mobile"] == req.body["mobile"]
    ensures forall k :: k in call.body ==> k == "name" || k == "mobile"
  {
    UpdateCall(req.user.id, map k | k in req.body && k in ProfileFields :: req.body[k])
  }

  /** `null` and the empty string are forwarded as they are; other keys never reach the update. */
  lemma UpdateMeForwardsNullAndEmpty(user: AuthUser, role: Json)
    ensures var body := map["mobile" := Null, "name" := Str(""), "role" := role, "password" := Str("x")];
            UpdateMe(Request(user, body)).body == map["mobile" := Null, "name" := Str("")]
  {
    var body := map["mobile" := Null, "name" := Str(""), "role" := role, "password" := Str("x")];
    var update := UpdateMe(Request(user, body)).body;
    assert update.Keys == {"mobile", "name"};
  }

  /** An empty body yields an empty update; the controller does not reject it. */
  lemma UpdateMeEmptyBody(user: AuthUser)
    ensures UpdateMe(Request(user, map[])) == UpdateCall(user.id, map[])
  {
  }

  /** `getMe`: the user whose id is the authenticated id, or `null`. */
  function GetMe(req: Request, users: seq<User>): (r: Option<User>)
    ensures r.Some? ==> r.value in users && r.value.id == req.user.id
    ensures r.Some? ==> r.value == users[FindById(users, req.user.id).value]
    ensures r.None? ==> forall j :: 0 <= j < |users| ==> users[j].id != req.user.id
  {
    match FindById(users, req.user.id)
    case None => None
    case Some(i) => Some(users[i])
  }

  /** `getMe` looks only at the authenticated id: the body plays no part. */
  lemma GetMeIgnoresBody(a: Request, b: Request, users: seq<User>)
    requires a.user.id == b.user.id
    ensures GetMe(a, users) == GetMe(b, users)
  {
  }
}

=== FILE: text.dfy ===
/** The JavaScript string primitives the user schema relies on. */
module Text {

  /** JavaScript's WhiteSpace and LineTerminator code points, the set `String.prototype.trim` strips. */
  predicate IsWhitespace(c: char) {
    || ('\U{0009}' <= c <= '\U{000D}') || c == '\U{0020}' || c == '\U{00A0}' || c == '\U{1680}'
    || ('\U{2000}' <= c <= '\U{200A}') || c == '\U{2028}' || c == '\U{2029}' || c == '\U{202F}'
    || c == '\U{205F}' || c == '\U{3000}' || c == '\U{FEFF}'
  }

  /** What the regular expression `/\d/` matches: ASCII digits only. */
  predicate IsDigit(c: char) {
    '0' <= c <= '9'
  }

  /** What the regular expression `/[a-zA-Z]/` matches. */
  predicate IsLetter(c: char) {
    ('a' <= c <= 'z') || ('A' <= c <= 'Z')
  }

  predicate IsUpper(c: char) {
    'A' <= c <= 'Z'
  }

  predicate HasDigit(s: string) {
    exists i :: 0 <= i < |s| && IsDigit(s[i])
  }

  predicate HasLetter(s: string) {
    exists i :: 0 <= i < |s| && IsLetter(s[i])
  }

  /** `s` without its leading whitespace. */
  function TrimStart(s: string): (r: string)
    ensures |r| <= |s| && r == s[|s| - |r|..]
    ensures forall i :: 0 <= i < |s| - |r| ==> IsWhitespace(s[i])
    ensures r != [] ==> !IsWhitespace(r[0])
  {
    if s != [] && IsWhitespace(s[0]) then
      var r := TrimStart(s[1..]);
      assert r == s[|s| - |r|..] by { assert s[1..][|s| - 1 - |r|..] == s[|s| - |r|..]; }
      assert forall i :: 1 <= i < |s| ==> s[i] == s[1..][i - 1];
      r
    else s
  }

  /** `s` without its trailing whitespace. */
  function TrimEnd(s: string): (r: string)
    ensures |r| <= |s| && r == s[..|r|]
    ensures forall i :: |r| <= i < |s| ==> IsWhitespace(s[i])
    ensures r != [] ==> !IsWhitespace(r[|r| - 1])
  {
    if s != [] && IsWhitespace(s[|s| - 1]) then
      var r := TrimEnd(s[..|s| - 1]);
      assert r == s[..|r|] by { assert s[..|s| - 1][..|r|] == s[..|r|]; }
      assert forall i :: 0 <= i < |s| - 1 ==> s[i] == s[..|s| - 1][i];
      r
    else s
  }

  /** How many whitespace characters `s` starts with. */
  function LeadingWhitespace(s: string): (n: nat)
    ensures n <= |s|
    ensures forall i :: 0 <= i < n ==> IsWhitespace(s[i])
    ensures n < |s| ==> !IsWhitespace(s[n])
  {
    |s| - |TrimStart(s)|
  }

  /** `r` is the slice of `s` at offset `a`, with only whitespace before and after it. */
  predicate IsMiddleSlice(s: string, r: string, a: nat) {
    && a + |r| <= |s| && r == s[a..a + |r|]
    && (forall i :: 0 <= i < a ==> IsWhitespace(s[i]))
    && (forall i :: a + |r| <= i < |s| ==> IsWhitespace(s[i]))
  }

  /** `String.prototype.trim`, the schema's `trim: true` setter. */
  function Trim(s: string): (r: string)
    ensures |r| <= |s|
    ensures NoSurroundingWhitespace(r)
    ensures (forall i :: 0 <= i < |s| ==> IsWhitespace(s[i])) <==> r == []
  {
    var t := TrimStart(s);
    var r := TrimEnd(t);
    assert r != [] ==> r[0] == t[0];
    r
  }

  /** What `Trim` keeps is the middle of `s`: only whitespace precedes it, only whitespace follows it. */
  lemma TrimIsMiddleSlice(s: string)
    ensures IsMiddleSlice(s, Trim(s), LeadingWhitespace(s))
  {
    var a := LeadingWhitespace(s);
    var t := TrimStart(s);
    assert t == s[a..];
    var r := Trim(s);
    assert r == TrimEnd(t);
    PrefixOfSuffixIsMiddle(s, t, r, a);
  }

  /** Nothing but `Trim(s)` is a middle slice after the leading whitespace with non-whitespace ends. */
  lemma TrimIsTheOnlyMiddle(s: string, r: string)
    requires IsMiddleSlice(s, r, LeadingWhitespace(s)) && NoSurroundingWhitespace(r)
    ensures r == Trim(s)
  {
    TrimIsMiddleSlice(s);
    MiddleSliceIsUnique(s, r, Trim(s), LeadingWhitespace(s));
  }

  lemma MiddleSliceIsUnique(s: string, r1: string, r2: string, a: nat)
    requires IsMiddleSlice(s, r1, a) && NoSurroundingWhitespace(r1)
    requires IsMiddleSlice(s, r2, a) && NoSurroundingWhitespace(r2)
    requires a < |s| ==> !IsWhitespace(s[a])
    ensures r1 == r2
  {
    assert r1 != [] ==> !IsWhitespace(s[a + |r1| - 1]) by { if r1 != [] { assert r1[|r1| - 1] == s[a + |r1| - 1]; } }
    assert r2 != [] ==> !IsWhitespace(s[a + |r2| - 1]) by { if r2 != [] { assert r2[|r2| - 1] == s[a + |r2| - 1]; } }
  }

  /** A prefix `r` of the suffix `t = s[a..]`, with only whitespace cut on either side, is a middle slice. */
  lemma PrefixOfSuffixIsMiddle(s: string, t: string, r: string, a: nat)
    requires a <= |s| && t == s[a..] && (forall i :: 0 <= i < a ==> IsWhitespace(s[i]))
    requires |r| <= |t| && r == t[..|r|] && (forall i :: |r| <= i < |t| ==> IsWhitespace(t[i]))
    ensures IsMiddleSlice(s, r, a)
  {
    assert r == s[a..a + |r|] by { assert s[a..][..|r|] == s[a..a + |r|]; }
    forall i | a + |r| <= i < |s| ensures IsWhitespace(s[i]) {
      assert s[i] == t[i - a];
    }
  }

  function LowerChar(c: char): char {
    if IsUpper(c) then (c as int + 32) as char else c
  }

  /** `String.prototype.toLowerCase` restricted to ASCII, the schema's `lowercase: true` setter. */
  function ToLower(s: string): (r: string)
    ensures |r| == |s|
    ensures forall i :: 0 <= i < |s| ==> r[i] == LowerChar(s[i])
    ensures forall i :: 0 <= i < |r| ==> !IsUpper(r[i])
  {
    seq(|s|, i requires 0 <= i < |s| => LowerChar(s[i]))
  }

  lemma TrimOfTrimmed(s: string)
    requires NoSurroundingWhitespace(s)
    ensures Trim(s) == s
  {
  }

  /** Neither end of `s` is whitespace. */
  predicate NoSurroundingWhitespace(s: string) {
    s != [] ==> !IsWhitespace(s[0]) && !IsWhitespace(s[|s| - 1])
  }

  /** Lower-casing keeps a string's ends non-whitespace. */
  lemma LowerEnds(t: string)
    requires NoSurroundingWhitespace(t)
    ensures NoSurroundingWhitespace(ToLower(t))
  {
  }

  /** Lower-casing a trimmed slice gives a trimmed slice of the lower-cased string, at the same offset. */
  lemma LowerOfMiddleSlice(s: string, t: string, a: nat)
    requires IsMiddleSlice(s, t, a)
    ensures IsMiddleSlice(ToLower(s), ToLower(t), a)
  {
    var ls, lt := ToLower(s), ToLower(t);
    forall i | 0 <= i < |t| ensures lt[i] == ls[a + i] {
      assert t[i] == s[a + i];
    }
    assert lt == ls[a..a + |lt|];
    forall i | 0 <= i < |s| && (i < a || a + |t| <= i) ensures IsWhitespace(ls[i]) {
      assert IsWhitespace(s[i]);
      assert ls[i] == s[i];
    }
  }

  /** Trimming then lower-casing leaves a trimmed slice of the lower-cased string. */
  lemma LowerOfTrim(s: string)
    ensures IsMiddleSlice(ToLower(s), ToLower(Trim(s)), LeadingWhitespace(s))
  {
    TrimIsMiddleSlice(s);
    LowerOfMiddleSlice(s, Trim(s), LeadingWhitespace(s));
  }

  lemma {:induction false} TrimStartCommutesWithLower(s: string)
    ensures TrimStart(ToLower(s)) == ToLower(TrimStart(s))
    decreases |s|
  {
    if s != [] {
      assert IsWhitespace(ToLower(s)[0]) == IsWhitespace(s[0]);
      if IsWhitespace(s[0]) {
        assert ToLower(s)[1..] == ToLower(s[1..]);
        TrimStartCommutesWithLower(s[1..]);
      }
    }
  }

  lemma {:induction false} TrimEndCommutesWithLower(s: string)
    ensures TrimEnd(ToLower(s)) == ToLower(TrimEnd(s))
    decreases |s|
  {
    if s != [] {
      assert IsWhitespace(ToLower(s)[|s| - 1]) == IsWhitespace(s[|s| - 1]);
      if IsWhitespace(s[|s| - 1]) {
        assert ToLower(s)[..|s| - 1] == ToLower(s[..|s| - 1]);
        TrimEndCommutesWithLower(s[..|s| - 1]);
      }
    }
  }

  /** The `trim` and `lowercase` setters give the same value whichever runs first. */
  lemma TrimCommutesWithLower(s: string)
    ensures Trim(ToLower(s)) == ToLower(Trim(s))
  {
    TrimStartCommutesWithLower(s);
    TrimEndCommutesWithLower(TrimStart(s));
  }

  /** JavaScript's `length`: UTF-16 code units, two for a character outside the Basic Multilingual Plane. */
  function Utf16Length(s: string): (r: nat)
    ensures |s| <= r <= 2 * |s|
    ensures r == |s| <==> forall i :: 0 <= i < |s| ==> s[i] as int <= 0xFFFF
  {
    if s == [] then 0
    else
      var rest := Utf16Length(s[1..]);
      assert forall i :: 1 <= i < |s| ==> s[i] == s[1..][i - 1];
      (if s[0] as int > 0xFFFF then 2 else 1) + rest
  }

  newtype byte = x: int | 0 <= x < 256

  /** The UTF-8 encoding of one character (Dafny characters are Unicode scalar values). */
  function Utf8Char(c: char): (r: seq<byte>)
    ensures 1 <= |r| <= 4
    ensures (|r| == 1) <==> c as int < 0x80
    ensures |r| == 1 ==> r[0] as int == c as int
    ensures 0 in r <==> c == '\0'
  {
    var n := c as int;
    if n < 0x80 then [n as byte]
    else if n < 0x800 then [(0xC0 + n / 0x40) as byte, (0x80 + n % 0x40) as byte]
    else if n < 0x10000 then
      [(0xE0 + n / 0x1000) as byte, (0x80 + (n / 0x40) % 0x40) as byte, (0x80 + n % 0x40) as byte]
    else
      [(0xF0 + n / 0x40000) as byte, (0x80 + (n / 0x1000) % 0x40) as byte,
       (0x80 + (n / 0x40) % 0x40) as byte, (0x80 + n % 0x40) as byte]
  }

  /** The UTF-8 encoding of a string. */
  function Utf8(s: string): (r: seq<byte>)
    ensures |r| >= |s|
  {
    if s == [] then [] else Utf8Char(s[0]) + Utf8(s[1..])
  }

  /** Encoding distributes over concatenation. */
  lemma {:induction false} Utf8Append(a: string, b: string)
    ensures Utf8(a + b) == Utf8(a) + Utf8(b)
    decreases |a|
  {
    if a != [] {
      assert (a + b)[0] == a[0] && (a + b)[1..] == a[1..] + b;
      Utf8Append(a[1..], b);
      assert Utf8(a + b) == Utf8Char(a[0]) + (Utf8(a[1..]) + Utf8(b));
    } else {
      assert a + b == b;
    }
  }

  /** The encoding of a slice is no longer than the encoding of the whole. */
  lemma Utf8SliceLength(s: string, a: nat, b: nat)
    requires a <= b <= |s|
    ensures |Utf8(s[a..b])| <= |Utf8(s)|
  {
    assert s == s[..a] + s[a..b] + s[b..];
    Utf8Append(s[..a] + s[a..b], s[b..]);
    Utf8Append(s[..a], s[a..b]);
  }

  /** An ASCII string encodes to its own character codes, one byte each. */
  lemma {:induction false} Utf8OfAscii(s: string)
    requires forall i :: 0 <= i < |s| ==> s[i] as int < 0x80
    ensures |Utf8(s)| == |s|
    ensures forall i :: 0 <= i < |s| ==> Utf8(s)[i] as int == s[i] as int
  {
    if s != [] {
      Utf8OfAscii(s[1..]);
      assert forall i :: 1 <= i < |s| ==> Utf8(s)[i] == Utf8(s[1..])[i - 1];
    }
  }
}

=== FILE: user_model.dfy ===
/** The user schema of `src/models/user.model.js`: setters, defaults, validators, hooks and statics. */
module UserModel {
  import opened Wrappers
  import opened Text
  import opened Collections

  type UserId = nat

  /**
   * A stored user document. `None` stands for a field that is `undefined` or `null`;
   * `picture` holds the value cast from the identity provider's picture URL.
   */
  datatype User = User(
    id: UserId,
    name: string,
    email: string,
    password: Option<string>,
    googleId: Option<string>,
    picture: Option<string>,
    role: string,
    mobile: Option<string>,
    isEmailVerified: bool)

  /** The fields a caller passes to `User.create`; `None` is an omitted field. */
  datatype UserInput = UserInput(
    name: string,
    email: string,
    password: Option<string>,
    googleId: Option<string>,
    picture: Option<string>,
    role: Option<string>,
    mobile: Option<string>,
    isEmailVerified: Option<bool>)

  /** bcrypt as a pair of functions: `hash` (salt folded in) and `compare(candidate, hash)`. */
  datatype Hasher = Hasher(hash: string -> string, compare: (string, string) -> bool)

  /** What every caller of bcrypt relies on: a hash is never empty and accepts the string it was made from. */
  ghost predicate VerifiesOwnHash(h: Hasher) {
    forall plain :: h.hash(plain) != "" && h.compare(plain, h.hash(plain))
  }

  /** bcrypt keys on at most 72 bytes of the UTF-8 encoding of its input. */
  const BcryptKeyBytes: nat := 72

  /** Equal strings, or strings whose encodings agree on bcrypt's first 72 bytes. */
  predicate SameBcryptKey(a: string, b: string) {
    a == b || (|Utf8(a)| >= BcryptKeyBytes && |Utf8(b)| >= BcryptKeyBytes && Utf8(a)[..BcryptKeyBytes] == Utf8(b)[..BcryptKeyBytes])
  }

  /**
   * A string bcrypt reads in full: it fits the 72-byte key and holds no NUL, since bcryptjs cycles the
   * key bytes plus an appended zero and a NUL would let two strings share a key.
   */
  predicate FitsBcryptKey(s: string) {
    |Utf8(s)| <= BcryptKeyBytes && forall i :: 0 <= i < |s| ==> s[i] != '\0'
  }

  /**
   * bcryptjs: a hash is never empty; a candidate matches when it has the same 72-byte key as the hashed
   * string (longer input is silently truncated); and two different strings that bcrypt reads in full
   * never match (no hash collisions).
   */
  ghost predicate BcryptHasher(h: Hasher) {
    && (forall plain :: h.hash(plain) != "")
    && (forall candidate, plain :: SameBcryptKey(candidate, plain) ==> h.compare(candidate, h.hash(plain)))
    && (forall candidate, plain :: FitsBcryptKey(candidate) && FitsBcryptKey(plain) && candidate != plain ==>
          !h.compare(candidate, h.hash(plain)))
  }

  /** bcrypt accepts its own hashes. */
  lemma BcryptVerifiesOwnHash(h: Hasher)
    requires BcryptHasher(h)
    ensures VerifiesOwnHash(h)
  {
    forall plain ensures h.compare(plain, h.hash(plain)) {
      assert SameBcryptKey(plain, plain);
    }
  }

  const MinPasswordLength: nat := 8
  const DefaultRole: string := "user"
  const DefaultEmailVerified: bool := false

  /** JavaScript truthiness of an optional string: present and non-empty. */
  predicate Truthy(s: Option<string>) {
    s.Some? && s.value != ""
  }

  /** The schema's `required` function for `password`: required unless a Google id is set. */
  predicate PasswordRequired(googleId: Option<string>) {
    !Truthy(googleId)
  }

  /** The value the `email` setters store: trimmed, then lower-cased. */
  function NormalizeEmail(email: string): (r: string)
    ensures |r| <= |email|
    ensures NoSurroundingWhitespace(r)
    ensures forall i :: 0 <= i < |r| ==> !IsUpper(r[i])
  {
    LowerEnds(Trim(email));
    ToLower(Trim(email))
  }

  /**
   * A stored email is the lower-cased input with its surrounding whitespace cut off: the slice of the
   * lower-cased input after its leading whitespace, with only whitespace after it.
   */
  lemma NormalizeEmailIsLoweredMiddle(email: string)
    ensures IsMiddleSlice(ToLower(email), NormalizeEmail(email), LeadingWhitespace(email))
  {
    LowerOfTrim(email);
  }

  /** Nothing but the stored email is such a slice with non-whitespace ends. */
  lemma NormalizeEmailIsTheOnlyLoweredMiddle(email: string, r: string)
    requires IsMiddleSlice(ToLower(email), r, LeadingWhitespace(email)) && NoSurroundingWhitespace(r)
    ensures r == NormalizeEmail(email)
  {
    var a := LeadingWhitespace(email);
    NormalizeEmailIsLoweredMiddle(email);
    assert a < |email| ==> ToLower(email)[a] == LowerChar(email[a]);
    MiddleSliceIsUnique(ToLower(email), r, NormalizeEmail(email), a);
  }

  /** Normalizing an already stored email changes nothing. */
  lemma NormalizeEmailIdempotent(email: string)
    ensures NormalizeEmail(NormalizeEmail(email)) == NormalizeEmail(email)
  {
    var r := NormalizeEmail(email);
    TrimOfTrimmed(r);
    var l := ToLower(r);
    assert forall i :: 0 <= i < |r| ==> l[i] == r[i];
    assert l == r;
  }

  /** The password validators, in the order they are declared. */
  datatype PasswordError = Required | TooShort | MissingLetterOrDigit

  /**
   * The first validator that rejects `password` (the stored, already trimmed value), or `None`.
   * An absent (`undefined`/`null`) password passes every validator but `required`; `minlength` counts
   * JavaScript's UTF-16 code units.
   */
  function ValidatePassword(password: Option<string>, googleId: Option<string>): (r: Option<PasswordError>)
    ensures r == Some(Required) <==> PasswordRequired(googleId) && !Truthy(password)
    ensures r.None? <==>
      && (PasswordRequired(googleId) ==> Truthy(password))
      && (password.Some? ==>
            Utf16Length(password.value) >= MinPasswordLength && HasDigit(password.value) && HasLetter(password.value))
    ensures password.Some? && r != Some(Required) && Utf16Length(password.value) < MinPasswordLength ==>
              r == Some(TooShort)
    ensures r == Some(MissingLetterOrDigit) <==>
      && password.Some? && Truthy(password) && Utf16Length(password.value) >= MinPasswordLength
      && !(HasDigit(password.value) && HasLetter(password.value))
  {
    if PasswordRequired(googleId) && !Truthy(password) then Some(Required)
    else if password.None? then None
    else if Utf16Length(password.value) < MinPasswordLength then Some(TooShort)
    else if password.value != "" && !(HasDigit(password.value) && HasLetter(password.value)) then
      Some(MissingLetterOrDigit)
    else None
  }

  /** An empty password on a Google account is caught by the length rule, never by the letter-and-digit rule. */
  lemma EmptyPasswordSkipsFormatRule(googleId: Option<string>)
    ensures ValidatePassword(Some(""), googleId) != Some(MissingLetterOrDigit)
    ensures Truthy(googleId) ==> ValidatePassword(Some(""), googleId) == Some(TooShort)
  {
  }

  /** A password of eight or more characters is rejected by the format rule iff it lacks a letter or a digit. */
  lemma FormatRule(password: string, googleId: Option<string>)
    requires Utf16Length(password) >= MinPasswordLength
    ensures ValidatePassword(Some(password), googleId) == Some(MissingLetterOrDigit)
        <==> !(HasDigit(password) && HasLetter(password))
  {
  }

  /** Characters outside the Basic Multilingual Plane count twice towards `minlength`. */
  lemma AstralCharactersCountTwice()
    ensures ValidatePassword(Some("abc1\U{1F600}\U{1F600}"), None) == None
    ensures ValidatePassword(Some("abc1\U{1F600}"), None) == Some(TooShort)
  {
    var p := "abc1\U{1F600}\U{1F600}";
    Utf16Lengths();
    assert IsDigit(p[3]) && IsLetter(p[0]);
  }

  lemma Utf16Lengths()
    ensures Utf16Length("abc1\U{1F600}\U{1F600}") == 8
    ensures Utf16Length("abc1\U{1F600}") == 6
  {
    var p := "abc1\U{1F600}\U{1F600}";
    assert Utf16Length(p[5..]) == 2;
    assert Utf16Length(p[4..]) == 4;
    var q := "abc1\U{1F600}";
    assert Utf16Length(q[4..]) == 2;
  }

  /** `isPasswordMatch`: false without comparing when no password is stored. */
  function IsPasswordMatch(user: User, candidate: string, hasher: Hasher): (r: bool)
    ensures !Truthy(user.password) ==> !r
    ensures Truthy(user.password) ==> (r <==> hasher.compare(candidate, user.password.value))
  {
    if !Truthy(user.password) then false else hasher.compare(candidate, user.password.value)
  }

  /** The pre-save hook: hash the password only when it was modified and is non-empty. */
  function PreSave(user: User, passwordModified: bool, hasher: Hasher): (r: User)
    ensures r == user.(password := r.password)
    ensures passwordModified && Truthy(user.password) ==> r.password == Some(hasher.hash(user.password.value))
    ensures !(passwordModified && Truthy(user.password)) ==> r == user
  {
    if passwordModified && Truthy(user.password) then user.(password := Some(hasher.hash(user.password.value)))
    else user
  }

  /**
   * `user.password = plain` followed by `save()`: the `trim` setter runs on assignment, the path counts as
   * modified when the trimmed value differs from the stored one, and the pre-save hook hashes it.
   */
  function SavePassword(user: User, plain: string, hasher: Hasher): (r: User)
    ensures r == user.(password := r.password)
    ensures Trim(plain) != "" && user.password != Some(Trim(plain)) ==> r.password == Some(hasher.hash(Trim(plain)))
    ensures Trim(plain) == "" ==> r.password == Some("")
  {
    var updated := user.(password := Some(Trim(plain)));
    PreSave(updated, updated.password != user.password, hasher)
  }

  /**
   * A password saved with surrounding whitespace is stored as the hash of its trimmed form, and
   * `isPasswordMatch` does not trim its candidate: the trimmed form matches, and the string as typed
   * does not whenever bcrypt reads all of it.
   */
  lemma SurroundingWhitespaceDefeatsMatch(user: User, plain: string, hasher: Hasher)
    requires BcryptHasher(hasher)
    requires Trim(plain) != "" && Trim(plain) != plain
    requires user.password != Some(Trim(plain))
    ensures IsPasswordMatch(SavePassword(user, plain, hasher), Trim(plain), hasher)
    ensures FitsBcryptKey(plain) ==> !IsPasswordMatch(SavePassword(user, plain, hasher), plain, hasher)
  {
    var t := Trim(plain);
    assert SavePassword(user, plain, hasher).password == Some(hasher.hash(t));
    assert SameBcryptKey(t, t);
    if FitsBcryptKey(plain) {
      TrimKeepsBcryptFit(plain);
    }
  }

  /** Trimming never makes a string bcrypt reads in full into one it truncates. */
  lemma TrimKeepsBcryptFit(s: string)
    requires FitsBcryptKey(s)
    ensures FitsBcryptKey(Trim(s))
  {
    var a := LeadingWhitespace(s);
    TrimIsMiddleSlice(s);
    SliceKeepsBcryptFit(s, a, a + |Trim(s)|);
  }

  lemma SliceKeepsBcryptFit(s: string, a: nat, b: nat)
    requires FitsBcryptKey(s) && a <= b <= |s|
    ensures FitsBcryptKey(s[a..b])
  {
    Utf8SliceLength(s, a, b);
    assert forall i :: 0 <= i < b - a ==> s[a..b][i] == s[a + i];
  }

  /** bcrypt reads 72 bytes only: 72 letters and a space still match after the setter drops the space. */
  lemma LongPasswordSurvivesTrim(user: User, hasher: Hasher)
    requires BcryptHasher(hasher)
    ensures var letters := seq(BcryptKeyBytes, _ => 'a');
            var plain := letters + " ";
            && Trim(plain) == letters
            && (user.password != Some(letters) ==> IsPasswordMatch(SavePassword(user, plain, hasher), plain, hasher))
  {
    var letters := seq(BcryptKeyBytes, _ => 'a');
    var plain := letters + " ";
    assert plain[0] == 'a' && plain[|plain| - 1] == ' ' && plain[..|plain| - 1] == letters;
    assert TrimStart(plain) == plain;
    assert TrimEnd(letters) == letters;
    assert TrimEnd(plain) == letters;
    Utf8OfAscii(plain);
    Utf8OfAscii(letters);
    assert Utf8(plain)[..BcryptKeyBytes] == Utf8(letters)[..BcryptKeyBytes];
    assert SameBcryptKey(plain, letters);
  }

  /** `User.create`: setters, then defaults, then the pre-save hook (a set password is a modified path). */
  function CreateUser(id: UserId, input: UserInput, hasher: Hasher): (r: User)
    ensures r.id == id && r.googleId == input.googleId && r.picture == input.picture
    ensures r.name == Trim(input.name) && r.email == NormalizeEmail(input.email)
    ensures input.mobile.Some? ==> r.mobile == Some(Trim(input.mobile.value))
    ensures input.role.None? ==> r.role == DefaultRole
    ensures input.role.Some? ==> r.role == input.role.value
    ensures input.isEmailVerified.None? ==> r.isEmailVerified == DefaultEmailVerified
    ensures input.isEmailVerified.Some? ==> r.isEmailVerified == input.isEmailVerified.value
    ensures input.password.None? ==> r.password.None?
    ensures input.password.Some? && Trim(input.password.value) != "" ==>
              r.password == Some(hasher.hash(Trim(input.password.value)))
  {
    var password := match input.password case None => None case Some(p) => Some(Trim(p));
    var mobile := match input.mobile case None => None case Some(m) => Some(Trim(m));
    var doc := User(
      id, Trim(input.name), NormalizeEmail(input.email), password, input.googleId, input.picture,
      input.role.GetOr(DefaultRole), mobile, input.isEmailVerified.GetOr(DefaultEmailVerified));
    PreSave(doc, password.Some?, hasher)
  }

  /** A password given at creation matches in its trimmed form. */
  lemma CreatedPasswordMatches(id: UserId, input: UserInput, hasher: Hasher)
    requires VerifiesOwnHash(hasher)
    requires input.password.Some? && Trim(input.password.value) != ""
    ensures IsPasswordMatch(CreateUser(id, input, hasher), Trim(input.password.value), hasher)
  {
    var u := CreateUser(id, input, hasher);
    assert u.password == Some(hasher.hash(Trim(input.password.value)));
  }

  /** A user created under a fresh id with an email nobody has is what the lookups by id and by email find. */
  lemma CreatedUserIsFound(users: seq<User>, input: UserInput, hasher: Hasher)
    requires !IsEmailTaken(users, input.email, None)
    ensures var u := CreateUser(NewUserId(users), input, hasher);
            && FindById(users + [u], u.id) == Some(|users|)
            && FindByEmail(users + [u], input.email) == Some(|users|)
  {
    var u := CreateUser(NewUserId(users), input, hasher);
    FindByIdAppend(users, u);
    FindByEmailAppend(users, u, input.email);
  }

  lemma FindByIdAppend(users: seq<User>, u: User)
    requires forall j :: 0 <= j < |users| ==> users[j].id != u.id
    ensures FindById(users + [u], u.id) == Some(|users|)
  {
    var all := users + [u];
    assert forall j :: 0 <= j < |users| ==> all[j] == users[j];
    FindFirstAt(all, HasId(u.id), |users|);
  }

  lemma FindByEmailAppend(users: seq<User>, u: User, email: string)
    requires u.email == NormalizeEmail(email)
    requires forall j :: 0 <= j < |users| ==> users[j].email != NormalizeEmail(email)
    ensures FindByEmail(users + [u], email) == Some(|users|)
  {
    var all := users + [u];
    assert forall j :: 0 <= j < |users| ==> all[j] == users[j];
    FindFirstAt(all, HasEmail(email), |users|);
  }

  /** The filters of the lookups below, as `findOne` queries. */
  function HasId(id: UserId): User -> bool {
    (u: User) => u.id == id
  }

  function HasEmail(email: string): User -> bool {
    (u: User) => u.email == NormalizeEmail(email)
  }

  function HasGoogleId(googleId: string): User -> bool {
    (u: User) => u.googleId == Some(googleId)
  }

  /** `findOne({ _id })`. */
  function FindById(users: seq<User>, id: UserId): (r: Option<nat>)
    ensures r.Some? ==> r.value < |users| && users[r.value].id == id
    ensures r.Some? ==> forall j :: 0 <= j < r.value ==> users[j].id != id
    ensures r.None? ==> forall j :: 0 <= j < |users| ==> users[j].id != id
  {
    FindFirst(users, HasId(id))
  }

  /** `findOne({ email })`: the filter goes through the same trim and lowercase setters as the field. */
  function FindByEmail(users: seq<User>, email: string): (r: Option<nat>)
    ensures r.Some? ==> r.value < |users| && users[r.value].email == NormalizeEmail(email)
    ensures r.Some? ==> forall j :: 0 <= j < r.value ==> users[j].email != NormalizeEmail(email)
    ensures r.None? ==> forall j :: 0 <= j < |users| ==> users[j].email != NormalizeEmail(email)
  {
    FindFirst(users, HasEmail(email))
  }

  /** The `findByGoogleId` static: the first user whose `googleId` equals `googleId`. */
  function FindByGoogleId(users: seq<User>, googleId: string): (r: Option<nat>)
    ensures r.Some? ==> r.value < |users| && users[r.value].googleId == Some(googleId)
    ensures r.Some? ==> forall j :: 0 <= j < r.value ==> users[j].googleId != Some(googleId)
    ensures r.None? ==> forall j :: 0 <= j < |users| ==> users[j].googleId != Some(googleId)
  {
    FindFirst(users, HasGoogleId(googleId))
  }

  /** The `isEmailTaken` static; an omitted `excludeUserId` excludes nobody. */
  function IsEmailTaken(users: seq<User>, email: string, excludeUserId: Option<UserId>): (r: bool)
    ensures r <==> exists j :: 0 <= j < |users| && users[j].email == NormalizeEmail(email)
                                && (excludeUserId.None? || users[j].id != excludeUserId.value)
  {
    var found := FindFirst(users, (u: User) =>
      u.email == NormalizeEmail(email) && (excludeUserId.None? || u.id != excludeUserId.value));
    found.Some?
  }

  /** A fresh document id: one more than every id in use. */
  function NewUserId(users: seq<User>): (r: UserId)
    ensures forall j :: 0 <= j < |users| ==> users[j].id < r
  {
    if |users| == 0 then 0
    else
      var rest := NewUserId(users[1..]);
      assert forall j :: 1 <= j < |users| ==> users[j] == users[1..][j - 1];
      if users[0].id < rest then rest else users[0].id + 1
  }
}

=== FILE: wrappers.dfy ===
/** Failure-compatible wrappers shared by every module of the model. */
module Wrappers {

  /** A value that may be missing: JavaScript's `undefined`/`null` and Mongo's "no document". */
  datatype Option<+T> = None | Some(value: T) {

    /** Returns the wrapped value, or `default` when there is none. */
    function GetOr(default: T): T {
      match this
      case Some(v) => v
      case None => default
    }
  }

  /** The outcome of an operation that either returns a value or throws an error. */
  datatype Result<+T, +E> = Ok(value: T) | Err(error: E) {

    predicate IsFailure() {
      Err?
    }

    function PropagateFailure<U>(): Result<U, E>
      requires Err?
    {
      Err(error)
    }

    function Extract(): T
      requires Ok?
    {
      value
    }
  }
}
